=== FILE: README.md ===
# Hearing test: a Dafny model of the screening core

This project models the core of a Unity hearing-screening application:

- the **calibration sequencer**. For each test frequency the listener
  records the quietest audible slider level, or reports no response. The
  result is a map from frequency to a dBFS level or +∞.
- the **adaptive threshold search**. A "10-down / 5-up" staircase runs once
  over the frequencies 1000, 2000, 4000, 8000, 500 and 250 Hz.
- the **tone generator's render callback**: the linear pan law, the phase
  advance and wrap, and interleaved writes.
- the **results classification**: the average threshold, the hearing-status
  band, the risk factors and the recommendations.
- the **application helpers**: the age-group mapping, the literal norm
  tables and `Init`.
- the **patient questionnaire**: ordered validation, step navigation,
  reset, and saving the answers into the patient history.

Each Unity component becomes an immutable record, and each handler becomes
a pure function from state to state. A null static reference is `None`. An
exception the original would throw, such as an index past the end of a list
or a null dereference, is a `Failure`. User responses are a finite sequence
of events:

- `Heard`, `DidNotHear` and `Timeout` for the threshold search;
- slider moves and button presses for calibration.

Every response window of the original closes, by a button or by the 2 s
response timer, so each window consumes exactly one event. A finite event
sequence describes a prefix of the run: when the events run out, the model
stops in the open response window of the frequency being searched.

Leaving the test screen in that state ("Back" on the test panel) stops the
response timer but not the window flag, and nothing clears the flag before
the next pass. The next pass therefore starts with the window still open,
and a press during the playback of its first tone counts as an answer. The
model takes the flag and that press as inputs of `Audiometry.OnEnable`.

Modules, in dependency order:

| file | module | models |
|---|---|---|
| wrappers.dfy | `Wrappers` | `Option` and `Result` |
| patient_data.dfy | `PatientData` | the patient-history records |
| audiogram.dfy | `Audiogram` | frequency lists, dBFS levels, the -1 no-response sentinel |
| audio_waves.dfy | `AudioWaves` | the render callback |
| static_data.dfy | `StaticData` | age groups, norm tables, `Init`, the shared application data |
| calibration.dfy | `Calibration` | the calibration panel |
| audiometry.dfy | `Audiometry` | the threshold search and the test pass |
| results.dfy | `Results` | average, status, risks, recommendations, the results screen |
| questionnaire.dfy | `Questionnaire` | the questionnaire screen |
| session.dfy | `Session` | how the screens hand data to each other |

Behaviour worth noting:

- A threshold needs two consecutive "heard" responses; a single one only
  lowers the level.
- There is one pass and one audiogram, not one per ear. Nothing writes
  the pan, which stays at its initial 0, so every tone plays at full gain
  in both channels.
- Pan 0.5 gives the gains (0.5, 1). The law is linear, not equal-power: the
  summed power is 2 at the centre and 1 at either extreme.
- A frequency calibrated above -20 dBFS reaches the 0 dBFS ceiling on its
  first trial and is recorded as no response without a tone, because the
  search starts 20 dB above the calibrated level.
- A pass started after leaving the test in an open response window accepts
  a press during its first tone. "Heard" then, and "heard" in that tone's
  window, record 0 dB HL after a single tone at 20 dB HL.
- The calibration map is published by reference. Re-enabling the
  calibration panel therefore empties the calibration the test reads. The
  screens only open the test at the end of a calibration, which refills the
  map first.

## Model

| member | source | states |
|---|---|---|
| `AudioWaves.LeftGain` | Assets/Scripts/AudioWaves.cs:83 | the left gain is full from hard left to the centre and then falls by the pan, reaching 0 at hard right |
| `AudioWaves.RightGain` | Assets/Scripts/AudioWaves.cs:84 | the right gain is the mirror image of the left one: its value at pan p is the left gain at -p |
| `AudioWaves.PanLawBounds` | Assets/Scripts/AudioWaves.cs:83-84 | over pan in [-1, 1] both gains lie in [0, 1], at least one is 1, and together they sum to 2 - abs(pan) |
| `AudioWaves.PanLawLandmarks` | Assets/Scripts/AudioWaves.cs:83-84 | hard left (1, 0), centre (1, 1), half right (0.5, 1), hard right (0, 1) |
| `AudioWaves.PanLawNotEqualPower` | Assets/Scripts/AudioWaves.cs:83-84 | summed power is 2 at the centre and 1 at an extreme, so the law is linear, not equal-power |
| `AudioWaves.Increment` | Assets/Scripts/AudioWaves.cs:75 | the per-frame increment times the sampling rate is the frequency times 2π; it is non-negative for a non-negative frequency and at most 2π up to the sampling rate |
| `AudioWaves.AdvanceStaysInRange` | Assets/Scripts/AudioWaves.cs:79-94 | from a phase in [0, 2π] with an increment in [0, 2π], one advance and the single subtraction stay in [0, 2π], differing from phase + increment by 0 or 2π |
| `AudioWaves.PhaseStaysInRange` | Assets/Scripts/AudioWaves.cs:77-94 | the same range holds after any number of frames |
| `AudioWaves.PhaseComposes` | Assets/Scripts/AudioWaves.cs:20-94 | because the phase persists across callbacks, n frames then m frames leave the same phase as n + m frames |
| `AudioWaves.SplitBlockSamples` | Assets/Scripts/AudioWaves.cs:77-81 | frame k of a second block produces the same sample as frame n + k of one block covering both |
| `AudioWaves.SecondChannelInBounds` | Assets/Scripts/AudioWaves.cs:77-89 | with two or more channels and a length not leaving remainder 1, the right-channel slot of every frame exists |
| `AudioWaves.WriteFrame` | Assets/Scripts/AudioWaves.cs:81-89 | one frame writes the panned sample to its first two slots and leaves the rest of the buffer unchanged |
| `AudioWaves.OnAudioFilterRead` | Assets/Scripts/AudioWaves.cs:73-96 | the output keeps the buffer length. Channel 0 of frame k holds amplitude·sin(phase before the wrap)·left, channel 1 the same sample·right, and other channels their input. The stored phase ends advanced by one increment per frame |
| `Audiogram.TestOrderIsChartOrderPermuted` | Assets/Scripts/AudiometryTest.cs:35 | the test order and the results chart order list the same six distinct frequencies |
| `StaticData.GetAgeGroupFromAge` | Assets/Scripts/StaticDataAndHelpers.cs:46-58 | the group is always one of 20..70, so the int.MinValue branch is never taken. Ages up to 0 give 30, 1..30 give 20, 31..69 give the decade, 70 and above give 70 |
| `StaticData.AgeGroupMonotone` | Assets/Scripts/StaticDataAndHelpers.cs:50-55 | for positive ages the group never decreases as the age grows |
| `StaticData.AgeGroupNotMonotoneAtZero` | Assets/Scripts/StaticDataAndHelpers.cs:50-51 | age 0 lands in group 30 but age 1 in group 20, because only the first test checks age > 0 |
| `StaticData.MaleNormsWellFormed` | Assets/Scripts/StaticDataAndHelpers.cs:28-35 | the male table covers exactly the chart frequencies; each row has exactly the six age groups, with values non-decreasing in age |
| `StaticData.FemaleNormsWellFormed` | Assets/Scripts/StaticDataAndHelpers.cs:36-43 | the same for the female table |
| `StaticData.AgeGroupIsTableKey` | Assets/Scripts/StaticDataAndHelpers.cs:28-55 | every row of a well-formed table belongs to a chart frequency, and every age group the mapping yields is a key of that row |
| `StaticData.RowMonotone` | Assets/Scripts/StaticDataAndHelpers.cs:29-42 | within a well-formed row, a later age group never has a smaller norm |
| `StaticData.NormMonotoneInAge` | Assets/Scripts/StaticDataAndHelpers.cs:28-58 | looking up a norm by positive age never decreases as the age grows |
| `StaticData.Init` | Assets/Scripts/StaticDataAndHelpers.cs:19-44 | a fresh history and an empty audiogram are always installed. The norm tables are built only when neither exists, and are otherwise left as they were |
| `StaticData.InitIdempotent` | Assets/Scripts/StaticDataAndHelpers.cs:19-44 | running Init twice is running it once |
| `StaticData.InitFromUnset` | Assets/Scripts/StaticDataAndHelpers.cs:19-44 | from the all-null state Init installs exactly the literal tables |
| `Calibration.LoadFrequency` | Assets/Scripts/HearingTestManager.cs:70-86 | the generator plays the indexed frequency; slider and gain are both reset to -60 dBFS; index, map and publication are unchanged |
| `Calibration.OnEnable` | Assets/Scripts/HearingTestManager.cs:43-51 | the index is 0 and the map is empty. An earlier publication stays, but now shows the empty map. The first frequency plays |
| `Calibration.OnSliderChanged` | Assets/Scripts/HearingTestManager.cs:64-68 | the slider is the value within [-80, 0], clamped at the bounds, and the generator gain follows it |
| `Calibration.FinishCalibration` | Assets/Scripts/HearingTestManager.cs:125-144 | the tone stops and the published calibration is the component's own map |
| `Calibration.Record` | Assets/Scripts/HearingTestManager.cs:88-123 | a press fails exactly when the index is past the list. Otherwise it stores the level for the current frequency and advances the index by one. It finishes, and publishes, exactly when the index reaches the list length, and then the tone is stopped. Otherwise it loads the next frequency: the slider and the generator gain go back to -60 dBFS, the generator plays the next frequency and the pan is kept |
| `Calibration.OnConfirmPressed` | Assets/Scripts/HearingTestManager.cs:88-105 | within the list, confirm records the slider's dBFS value for the current frequency |
| `Calibration.OnNoResponsePressed` | Assets/Scripts/HearingTestManager.cs:107-123 | within the list, no response records +∞ for the current frequency |
| `Calibration.OnEnableValid` | Assets/Scripts/HearingTestManager.cs:31-51 | enabling the panel yields the calibration invariant: index in range, map keys exactly the visited frequencies, finite levels within the slider bounds |
| `Calibration.StepValid` | Assets/Scripts/HearingTestManager.cs:64-123 | a successful slider move or press keeps the invariant; a press advances the index by exactly one and a slider move does not |
| `Calibration.RunWithinList` | Assets/Scripts/HearingTestManager.cs:88-123 | k presses from index i with i + k ≤ 6 succeed. The map's keys are then the first i + k frequencies, and the map is published exactly when it already was or the last frequency was reached |
| `Calibration.RunPastEndFails` | Assets/Scripts/HearingTestManager.cs:88-123 | more presses than remaining frequencies fail, because neither button guards against use after the end |
| `Calibration.RecalibrationEmptiesPublished` | Assets/Scripts/HearingTestManager.cs:43-135 | a full calibration publishes a map keyed by every test frequency, and re-enabling the panel empties that published map |
| `Audiometry.OnUserMissed` | Assets/Scripts/AudiometryTest.cs:162-166 | a miss resets the consecutive count and raises the level by 5 dB, leaving the window flag to its caller |
| `Audiometry.OnUserHeard` | Assets/Scripts/AudiometryTest.cs:143-151 | "heard" always leaves the window closed; outside a window it changes nothing; inside one it counts one more consecutive response while the level plus 10 per consecutive response stays the same (10 down) |
| `Audiometry.OnUserDidNotHear` | Assets/Scripts/AudiometryTest.cs:153-160 | "did not hear" has exactly the effect of the response timer expiring |
| `Audiometry.ResponseTimer` | Assets/Scripts/AudiometryTest.cs:133-141 | the timer always leaves the window closed; with no window open it changes nothing; with one open it resets the count and raises the level |
| `Audiometry.IgnoredOutsideWindow` | Assets/Scripts/AudiometryTest.cs:133-160 | a response or timer event with no open window changes nothing |
| `Audiometry.TimeoutIsMiss` | Assets/Scripts/AudiometryTest.cs:133-166 | a timeout has exactly the effect of an explicit "did not hear" |
| `Audiometry.HeardInWindow` | Assets/Scripts/AudiometryTest.cs:143-151 | "heard" in a window closes it, counts one more ascending response and lowers the level by 10 |
| `Audiometry.MissInWindow` | Assets/Scripts/AudiometryTest.cs:153-166 | a miss in a window closes it, resets the count and raises the level by 5 |
| `Audiometry.Search` | Assets/Scripts/AudiometryTest.cs:89-127 | every presented tone is at the calibrated level plus the hearing level, at or below 0 dBFS, at the searched frequency. A ceiling means the next stimulus exceeds 0 dBFS. A threshold is the current level, reached with two ascending responses. Each tone but a pending one consumes one event |
| `Audiometry.StaircaseRule` | Assets/Scripts/AudiometryTest.cs:85-150 | the first tone is at the start level. Each following tone is 10 lower after "heard" and 5 higher after a miss. The final level is the start plus 5 per miss minus 10 per "heard" |
| `Audiometry.ThresholdNeedsTwoHeards` | Assets/Scripts/AudiometryTest.cs:121-126 | a threshold follows a "heard" event that completes two consecutive ones, with no earlier consecutive pair. The recorded value is 10 below the last presented level |
| `Audiometry.LevelsStayOnGrid` | Assets/Scripts/AudiometryTest.cs:85-165 | from 20 dB HL every tone level, the final level and a threshold are multiples of 5, so a threshold is never the -1 sentinel |
| `Audiometry.AlternationNeverSettles` | Assets/Scripts/AudiometryTest.cs:143-166 | alternating "heard" and "did not hear" lowers the level by 5 per pair and never ends the search |
| `Audiometry.ExampleHeardTwice` | Assets/Scripts/AudiometryTest.cs:85-126 | two "heard" responses present 20 then 10 dB HL and record 0 |
| `Audiometry.ExampleEscalation` | Assets/Scripts/AudiometryTest.cs:85-126 | three misses, one of them a timeout, then two "heard" present 20, 25, 30, 35 and 25 dB HL and record 15 |
| `Audiometry.CeilingAtStart` | Assets/Scripts/AudiometryTest.cs:85-101 | the search ends at once as a ceiling with no tone exactly when the calibration is above -20 dBFS, whatever the responses; otherwise its first tone is at 20 dB HL, 20 dB above the calibrated level |
| `Audiometry.RunFrom` | Assets/Scripts/AudiometryTest.cs:72-127 | the loop answers each presented tone with exactly one event and never consumes more events than given (a suspended loop has one tone more than events used, for the tone still waiting); it only adds entries, for looped frequencies; a completed loop has an entry for every looped frequency; a suspended one has consumed every event and waits in an open window of a looped frequency |
| `Audiometry.RunTest` | Assets/Scripts/AudiometryTest.cs:70-131 | a completed pass has entries for exactly the test frequencies; a suspended one has consumed every event |
| `Audiometry.LoopRecordsEachFrequency` | Assets/Scripts/AudiometryTest.cs:72-127 | every tone belongs to a looped frequency and stays at or below 0 dBFS. A completed loop over distinct frequencies gives each one exactly one entry and keeps the other entries. A skipped frequency gets -1 and no tone. Every searched frequency's entry is what its search found on the events left at its turn, that is, after as many events as there were tones for the frequencies before it: -1 for the 0 dBFS ceiling (line 99), the level at two consecutive "heard" responses otherwise (line 124). Every entry is -1 or a multiple of 5 |
| `Audiometry.LoopTurns` | Assets/Scripts/AudiometryTest.cs:72-127 | in a completed loop over distinct frequencies, each calibrated frequency's entry is the outcome of its own search (-1 for the ceiling, the threshold otherwise) on the events after exactly as many as there were tones for the frequencies before it in the loop |
| `Audiometry.CompletedPass` | Assets/Scripts/AudiometryTest.cs:70-131 | a completed pass has exactly one entry per test frequency; uncalibrated ones are -1 and never presented; every other entry is the outcome of that frequency's search on the events after the tones of the frequencies before it, -1 for the ceiling and the threshold otherwise; no tone exceeds 0 dBFS |
| `Audiometry.SearchLeftOpen` | Assets/Scripts/AudiometryTest.cs:84-160 | the first search of a pass entered with the window flag set: no tone exactly when the calibration is above -20 dBFS, and then the flag stays set; otherwise one event per answered tone, all tones at the frequency and at most 0 dBFS, and a waiting search has used every event |
| `Audiometry.RunFromLeftOpen` | Assets/Scripts/AudiometryTest.cs:72-127 | with the flag set on entry the loop keeps the bounds of the ordinary loop: one event per tone, never more events than given, only looped keys added, a completed loop covers every looped frequency, a suspended one waits in an open window |
| `Audiometry.RunTestLeftOpen` | Assets/Scripts/AudiometryTest.cs:70-131 | a completed pass entered with the flag set still has keys exactly the test frequencies; a suspended one used every event |
| `Audiometry.LeftOpenWithoutPress` | Assets/Scripts/AudiometryTest.cs:72-127 | without a press during the first tone, a pass entered with the flag set is exactly the ordinary pass |
| `Audiometry.EarlyPressAnswersFirstTone` | Assets/Scripts/AudiometryTest.cs:104-160 | a press during the first tone acts as that tone's answer: the search ends with the same outcome and final state as the ordinary search given the press as its first event, one event and one tone (the repeat at the new level) sooner |
| `Audiometry.StaleWindowEarlyThreshold` | Assets/Scripts/AudiometryTest.cs:104-151 | calibrated at or below -20 dBFS, "heard" during the first tone and "heard" in its window record 0 dB HL after one tone at 20 dB HL, while the ordinary search given one "heard" presents a second tone at 10 dB HL |
| `Audiometry.OnEnable` | Assets/Scripts/AudiometryTest.cs:37-67 | enabling the test fails exactly when no calibration has been published. Otherwise it is the pass over the published map, answered by the given events: the ordinary pass when the window flag left by the last disable is clear or no press comes during the first tone, the left-open pass otherwise |
| `Audiometry.OnEnableClosingWindow` | Assets/Scripts/AudiometryTest.cs:37-55 | clearing the window flag on enable makes every pass the ordinary one, whatever is pressed during the first tone, and fails exactly without a published calibration |
| `Audiometry.FinishTest` | Assets/Scripts/AudiometryTest.cs:168-177 | the shared audiogram becomes a copy of the results, and nothing else in the shared data changes |
| `Audiometry.FinishTestOverwrites` | Assets/Scripts/AudiometryTest.cs:168-177 | publishing a second audiogram replaces the first entirely, and the next Init discards what was published |
| `Session.NothingCalibratedSkipsAll` | Assets/Scripts/AudiometryTest.cs:72-82 | with an empty calibration the loop completes without a tone or a consumed event, and records -1 for every frequency |
| `Session.TestBeforeCalibrationRefused` | Assets/Scripts/AudiometryTest.cs:37-44 | before any calibration has finished nothing is published, even with the calibration panel enabled, so enabling the test shows the missing-calibration error, whatever the window flag |
| `Session.RecalibrationThenTest` | Assets/Scripts/HearingTestManager.cs:43-135 | the published map is shared: after a full calibration and re-enabling the calibration panel, a test started then presents nothing, records -1 everywhere and is classified normal, whatever window flag an earlier pass left. The screens never take this route, since the test opens only from the end of calibration (HearingTestManager.cs line 143, UI.cs lines 55-63), which refills the map |
| `Results.Counted` | Assets/Scripts/ResultsManager.cs:221-228 | a value is counted exactly when some listed frequency holds it and it is not the sentinel; there are at most as many counted entries as frequencies |
| `Results.CountedMultiplicity` | Assets/Scripts/ResultsManager.cs:221-228 | over distinct frequencies, each value is counted once per frequency holding it, so the counted entries are the multiset of the present, non-sentinel values |
| `Results.Accumulate` | Assets/Scripts/ResultsManager.cs:219-228 | the loop's total and count are the sum and the number of the counted entries |
| `Results.AverageThreshold` | Assets/Scripts/ResultsManager.cs:217-230 | the average is 0 when nothing counts, and otherwise lies between the smallest and the largest counted entry |
| `Results.CalculateAverageThreshold` | Assets/Scripts/ResultsManager.cs:217-230 | the average is the mean of the counted chart entries, 0 when none counts |
| `Results.AverageWithinCounted` | Assets/Scripts/ResultsManager.cs:217-230 | when something counts, the average lies between any lower and upper bound of the counted thresholds; otherwise it is 0 |
| `Results.AllNoResponseAveragesZero` | Assets/Scripts/ResultsManager.cs:217-237 | an all-sentinel audiogram averages to 0 and is classified normal |
| `Results.GetHearingStatus` | Assets/Scripts/ResultsManager.cs:232-239 | the severity rank of the status is the number of cut-offs among 25, 40 and 60 that the average reaches |
| `Results.StatusMonotone` | Assets/Scripts/ResultsManager.cs:232-239 | a higher average never gives a milder status |
| `Results.StatusBands` | Assets/Scripts/ResultsManager.cs:232-239 | each status is exactly its band: below 25, 25 to 40, 40 to 60, 60 and above |
| `Results.RiskOrderComplete` | Assets/Scripts/ResultsManager.cs:285-329 | the check order lists every risk factor once, by rank |
| `Results.SelectRisks` | Assets/Scripts/ResultsManager.cs:285-329 | selecting from a list of checks keeps exactly the applying risks, in check order |
| `Results.GetRiskFactors` | Assets/Scripts/ResultsManager.cs:285-329 | a risk is reported exactly when its condition holds; the list is in check order, without duplicates, and at most 10 long |
| `Results.HighRiskSources` | Assets/Scripts/ResultsManager.cs:292-311 | a high-severity risk is present exactly when there is noise risk, current ototoxic medication or a previous sudden loss |
| `Results.AdviceOrderComplete` | Assets/Scripts/ResultsManager.cs:331-373 | the emission order lists every recommendation once, by rank |
| `Results.SelectAdviceMembers` | Assets/Scripts/ResultsManager.cs:331-373 | the reference walk over a list of recommendations keeps exactly the advised ones |
| `Results.SelectAdviceOrdered` | Assets/Scripts/ResultsManager.cs:331-373 | the reference walk over a rank-ordered list stays rank-ordered |
| `Results.RecommendationsFollowAdviceOrder` | Assets/Scripts/ResultsManager.cs:331-373 | the band, history and keep-up blocks concatenated equal the walk that checks every recommendation's condition in emission order |
| `Results.GetRecommendations` | Assets/Scripts/ResultsManager.cs:331-373 | the list is what the reference walk over the emission order keeps: a recommendation is given exactly when its condition holds, and the list is in emission order without duplicates |
| `Results.BandAdviceFirst` | Assets/Scripts/ResultsManager.cs:336-345 | an average of 40 or more starts with the consult and hearing-aid pair; 25 to 40 starts with the follow-up pair |
| `Results.KeepUpAdviceLast` | Assets/Scripts/ResultsManager.cs:367-371 | when given, the continue-protecting and retest pair ends the list |
| `Results.KeepUpWithoutHighRisk` | Assets/Scripts/ResultsManager.cs:334-371 | with the risks of the same history, the continue-protecting pair appears exactly when the average is below 25 and there is no noise risk, current ototoxic medication or sudden loss |
| `Results.AdviceMatchesStatus` | Assets/Scripts/ResultsManager.cs:336-345 | the specialist pair appears exactly for moderate and significant loss, the follow-up pair exactly for mild loss, so the two never both appear |
| `Results.MilitaryNoiseAsymmetry` | Assets/Scripts/ResultsManager.cs:292-349 | military noise alone raises the noise risk but does not prompt hearing protection |
| `Results.DisplayResults` | Assets/Scripts/ResultsManager.cs:61-107 | the screen reports an error exactly when the history or the audiogram is missing. Otherwise it shows the average, its band, the applying risks in check order and the recommendations for them |
| `Questionnaire.CheckForAnyEmptyField` | Assets/Scripts/QuestionnaireManager.cs:222-253 | the form passes exactly when no rule is violated; otherwise it reports a violated rule that comes first in check order |
| `Questionnaire.ReportDependsOnlyOnViolations` | Assets/Scripts/QuestionnaireManager.cs:222-253 | two forms violating the same rules get the same report |
| `Questionnaire.EmptyFormRejected` | Assets/Scripts/QuestionnaireManager.cs:184-226 | the cleared form is rejected for its empty name |
| `Questionnaire.SaveAnswers` | Assets/Scripts/QuestionnaireManager.cs:93-125 | every history field is overwritten from the corresponding widget; the medication types, which the form does not ask for, are kept |
| `Questionnaire.SaveAnswersOverwrites` | Assets/Scripts/QuestionnaireManager.cs:93-125 | saving twice is saving once, and the result depends on the old history only through its medication types |
| `Questionnaire.SetActive` | Assets/Scripts/QuestionnaireManager.cs:135-147 | showing or hiding a panel fails exactly for a missing panel, and otherwise changes that panel alone |
| `Questionnaire.Move` | Assets/Scripts/QuestionnaireManager.cs:131-149 | a move fails exactly when the old or the new index is not a panel; it lands on the new index, and from one shown panel a move to another panel keeps exactly one panel shown |
| `Questionnaire.Awake` | Assets/Scripts/QuestionnaireManager.cs:54-72 | at index 0 only the first panel shows, at index 4 only the last; otherwise the panels are left alone |
| `Questionnaire.Previous` | Assets/Scripts/QuestionnaireManager.cs:131-139 | on the first step a no-op; otherwise one step back with exactly one panel shown |
| `Questionnaire.PreviousKeepsOneActive` | Assets/Scripts/QuestionnaireManager.cs:131-139 | Previous always succeeds and keeps exactly one panel shown |
| `Questionnaire.NextAsWritten` | Assets/Scripts/QuestionnaireManager.cs:141-149 | before the last step, one step forward with exactly one panel shown |
| `Questionnaire.NextAsWrittenFailsOnLastStep` | Assets/Scripts/QuestionnaireManager.cs:141-149 | on the last step the written Next hides it, moves to index 5 and fails on the missing sixth panel |
| `Questionnaire.NextAsWrittenStrandsForm` | Assets/Scripts/QuestionnaireManager.cs:131-156 | the writes before that failure leave every panel hidden at index 5; there Continue is hidden, Next does nothing and Previous fails on the missing sixth panel before it moves, so the form is stuck |
| `Questionnaire.Next` | Assets/Scripts/QuestionnaireManager.cs:141-149 | the corrected Next moves one step forward before the last step and is a no-op on it |
| `Questionnaire.NextKeepsOneActive` | Assets/Scripts/QuestionnaireManager.cs:141-149 | the corrected Next always succeeds and keeps exactly one panel shown |
| `Questionnaire.FormControls` | Assets/Scripts/QuestionnaireManager.cs:154-156 | with one panel shown, the Next button is enabled exactly where the written Next would not fail and exactly where the corrected Next moves; Previous is enabled exactly where it moves back; Continue shows exactly when Next is disabled |
| `Questionnaire.EnabledNextAgrees` | Assets/Scripts/QuestionnaireManager.cs:141-155 | while the Next button is enabled, the written and the corrected Next agree |
| `Questionnaire.ResetDefaults` | Assets/Scripts/QuestionnaireManager.cs:174-220 | back on the first step with only it shown, with the status line and the form cleared |
| `Questionnaire.Continue` | Assets/Scripts/QuestionnaireManager.cs:86-129 | an invalid form shows the first failure's message and changes no data. A valid form without a history fails. A valid form with a history clears the status, saves the answers and moves to calibration |
| `Questionnaire.ContinueTouchesOnlyHistory` | Assets/Scripts/QuestionnaireManager.cs:86-129 | Continue changes no shared data but the history, and leaves the history alone when it rejects |
| `Questionnaire.ContinueAfterResetRejected` | Assets/Scripts/QuestionnaireManager.cs:86-226 | after a reset, Continue is rejected with the empty-name message |

## Left out

- Unity widgets, listeners, `SetActive` panel switching in `Assets/Scripts/UI.cs`, status-text writes other than the questionnaire's, and `AudioSource.Play`/`Stop` (except the generator's `playing` flag): they are presentation, not logic.
- Coroutine timing: the 1 s tone and the 2 s response window become one event per presented tone.
- Concurrency between the audio thread and the main thread's writes to frequency, gain and pan: `OnAudioFilterRead` sees them as fixed parameters for one block.
- Floating point: all arithmetic is over `real`. `float`/`double` rounding and casts are not modelled; `Mathf.Sin` is a parameter, and `Mathf.Pow` in `AudioWaves.Update` is left out, with the amplitude passed in.
- `AudioWaves.Update`, `DrawSineWave`, `ResultsManager.PlotAudiogram`, `BuildReportString` and `OnDownloadReport`: visualisation, date formatting and file I/O.
- `OnDisable` of the test and calibration panels: the calibration panel stops the tone and sets the generator gain to -80 dBFS, which silences it (`Assets/Scripts/HearingTestManager.cs:53-62`); the test panel stops the tone and its coroutines and removes its button listeners (`Assets/Scripts/AudiometryTest.cs:57-67`). Disabling the test panel ends a run that the model treats as stopped where its events end. It does not clear the window flag: a run suspended in an open window leaves it set, and `Audiometry.OnEnable` takes it as its `windowOpen` input.
- `int.TryParse` and the dropdowns' option texts: `Questionnaire.SaveAnswers` and `Questionnaire.Continue` take them as functions.
- The visibility toggles of the noise-duration and tinnitus-frequency widgets in `QuestionaireFormWorking` (lines 158-171): presentation only.
- Audiogram keys are `float` in the original and `int` here; every key in use is an integer frequency.
- `Audiometry.RunTestLeftOpen`: the window flag at the end of the pass is not returned. It stays set when no tone was played, and the next pass would inherit it again.
- Presses during a tone's playback with the window flag clear are ignored by the handlers' guards, so the ordinary search has no event for them; only the first such press in a pass entered with the flag set has an effect, and it is `early`.
- `Audiometry.Search`: with a finite event sequence it may stop `Waiting` in an open window; that run is a prefix, and the model stops where the events stop, not because the original would wait. Termination is not claimed: `Audiometry.AlternationNeverSettles` shows a response pattern that never ends the search.
- `Calibration.OnSliderChanged`: the clamp to [-80, 0] is the Unity slider's doing, not the handler's; the handler itself copies the value.
- `Calibration.Awake`: only the initial state is modelled; the slider bounds it sets are the constants `SliderMin` and `SliderMax`.
- `Results.DisplayResults`: the formatted texts and the "no significant risk factors" line are not modelled; the error case is `DataNotFound`.
- Throwing handlers: in the original, the writes a handler makes before it throws persist; the model stops at the `Failure` and returns no state. `Questionnaire.NextAsWrittenStrandsForm` spells out the one case where this matters for the panels.
- `Questionnaire.Continue`: with a valid form and no history the original clears the status text (`Assets/Scripts/QuestionnaireManager.cs:90`) before it throws; the model's `Failure(HistoryMissing)` does not carry that cleared status.
- `AudioWaves.OnAudioFilterRead`: requires a positive stride and, for two or more channels, a buffer length not leaving remainder 1; the original would loop or index out of bounds otherwise.

## Findings

| source | as written | input that shows it | evidently intended | confidence | as-written member | corrected member |
|---|---|---|---|---|---|---|
| Assets/Scripts/QuestionnaireManager.cs:141-149 | Next moves on while the step index is below 5, but the last of the five panels has index 4 | index 4 (last step shown): Next hides step 4, sets the index to 5 and indexes the missing sixth panel. Those writes stay, so every panel is hidden and Continue is hidden too (it shows only at index 4, line 155); Next then does nothing and Previous throws at the sixth panel before it decrements (lines 131-139): the form is stuck | move on only while the index is below 4 | not executed; masked in the running app because the Next button is disabled on the last step (line 155), which `Questionnaire.EnabledNextAgrees` states | `Questionnaire.NextAsWrittenFailsOnLastStep`, `Questionnaire.NextAsWrittenStrandsForm` | `Questionnaire.NextKeepsOneActive` |
| Assets/Scripts/AudiometryTest.cs:37-67 | neither enabling the test nor the per-frequency reset (lines 85-86) clears `isWaitingForResponse`, and disabling stops the response timer with the flag still set | leave the test in an open window ("Back", `Assets/Scripts/UI.cs:66-70`), recalibrate and start the test again; press "heard" during the first tone (line 109 yields for 1 s, line 145 lets the press through), then "heard" in its window: 0 dB HL is recorded after a single tone at 20 dB HL | every pass starts with the window closed, so a press during playback is ignored | not executed; high, the route is ordinary use of the Back button | `Audiometry.OnEnable`, `Audiometry.StaleWindowEarlyThreshold` | `Audiometry.OnEnableClosingWindow` |

=== FILE: audio_waves.dfy ===
/** The tone generator's render callback (Assets/Scripts/AudioWaves.cs,
    `OnAudioFilterRead`): a linear pan law, one phase increment per frame,
    a single-subtraction phase wrap and interleaved writes to the first two
    channels of each frame.

    Floating point is modelled over `real`. `Mathf.Sin` is a parameter `sin`
    of the render method (any total function), so nothing below depends on
    what it computes. `Mathf.PI` is the exact value of the single-precision
    constant. */
module AudioWaves {

  /** The value of the single-precision constant `Mathf.PI`. */
  const MathfPi: real := 3.1415927410125732421875

  /** The wrap bound `Mathf.PI * 2` (doubling a float is exact). */
  const TwoPi: real := 2.0 * MathfPi

  /** Generator settings the other components write: frequency (Hz), gain
      (dBFS), pan (-1 left .. 1 right) and whether the audio source plays. */
  datatype ToneSettings = ToneSettings(frequency: real, gain: real, pan: real, playing: bool)

  /** Field initialisers of the generator: 1000 Hz, -20 dBFS, centred, silent. */
  const InitialSettings: ToneSettings := ToneSettings(1000.0, -20.0, 0.0, false)

  // ----- pan law -------------------------------------------------------------

  /** Left-channel gain of the linear pan law: full from hard left to the
      centre, then falling linearly to silence at hard right. */
  function LeftGain(pan: real): (g: real)
    ensures pan <= 0.0 ==> g == 1.0
    ensures 0.0 <= pan ==> g + pan == 1.0
  {
    if pan <= 0.0 then 1.0 else 1.0 - pan
  }

  /** Right-channel gain of the linear pan law, the mirror image of the left
      one. */
  function RightGain(pan: real): (g: real)
    ensures g == LeftGain(-pan)
  {
    if pan >= 0.0 then 1.0 else 1.0 + pan
  }

  /** Over the slider range both gains lie in [0, 1], at least one of them is
      full, and the centred position is full on both sides. */
  lemma PanLawBounds(pan: real)
    requires -1.0 <= pan <= 1.0
    ensures 0.0 <= LeftGain(pan) <= 1.0 && 0.0 <= RightGain(pan) <= 1.0
    ensures LeftGain(pan) == 1.0 || RightGain(pan) == 1.0
    ensures LeftGain(pan) + RightGain(pan) == 2.0 - (if pan < 0.0 then -pan else pan)
  {
  }

  /** The law at its landmarks: hard left, centre, half right, hard right. */
  lemma PanLawLandmarks()
    ensures (LeftGain(-1.0), RightGain(-1.0)) == (1.0, 0.0)
    ensures (LeftGain(0.0), RightGain(0.0)) == (1.0, 1.0)
    ensures (LeftGain(0.5), RightGain(0.5)) == (0.5, 1.0)
    ensures (LeftGain(1.0), RightGain(1.0)) == (0.0, 1.0)
  {
  }

  /** The law is linear, not equal-power: the summed power is 2 at the centre
      and 1 at either extreme. */
  lemma PanLawNotEqualPower()
    ensures LeftGain(0.0) * LeftGain(0.0) + RightGain(0.0) * RightGain(0.0) == 2.0
    ensures LeftGain(1.0) * LeftGain(1.0) + RightGain(1.0) * RightGain(1.0) == 1.0
  {
  }

  // ----- phase ---------------------------------------------------------------

  /** Radians the phase advances per frame, fixed for a whole block. */
  function Increment(frequency: real, samplingFrequency: real): (inc: real)
    requires samplingFrequency > 0.0
    ensures frequency >= 0.0 ==> inc >= 0.0
    ensures 0.0 <= frequency <= samplingFrequency ==> inc <= TwoPi
    ensures inc * samplingFrequency == frequency * TwoPi
  {
    frequency * 2.0 * MathfPi / samplingFrequency
  }

  /** One frame of phase bookkeeping: advance, then subtract 2π once if the
      advanced phase exceeds it. */
  function Advance(phase: real, inc: real): real {
    var p := phase + inc;
    if p > TwoPi then p - TwoPi else p
  }

  /** The stored phase after `n` frames. */
  function PhaseAfter(phase: real, inc: real, n: nat): real
    decreases n
  {
    if n == 0 then phase else Advance(PhaseAfter(phase, inc, n - 1), inc)
  }

  /** A single subtraction suffices: a phase in [0, 2π] advanced by at most
      2π is back in [0, 2π] after the wrap. */
  lemma AdvanceStaysInRange(phase: real, inc: real)
    requires 0.0 <= phase <= TwoPi
    requires 0.0 <= inc <= TwoPi
    ensures 0.0 <= Advance(phase, inc) <= TwoPi
    ensures Advance(phase, inc) == phase + inc || Advance(phase, inc) == phase + inc - TwoPi
  {
  }

  /** The wrap keeps the phase in [0, 2π] for any number of frames. */
  lemma {:induction false} PhaseStaysInRange(phase: real, inc: real, n: nat)
    requires 0.0 <= phase <= TwoPi
    requires 0.0 <= inc <= TwoPi
    ensures 0.0 <= PhaseAfter(phase, inc, n) <= TwoPi
    decreases n
  {
    if n > 0 {
      PhaseStaysInRange(phase, inc, n - 1);
      AdvanceStaysInRange(PhaseAfter(phase, inc, n - 1), inc);
    }
  }

  /** The phase persists across callbacks: n frames followed by m frames
      leave the same phase as n + m frames in one block. */
  lemma {:induction false} PhaseComposes(phase: real, inc: real, n: nat, m: nat)
    ensures PhaseAfter(PhaseAfter(phase, inc, n), inc, m) == PhaseAfter(phase, inc, n + m)
    decreases m
  {
    if m > 0 {
      PhaseComposes(phase, inc, n, m - 1);
    }
  }

  /** The sample of frame `k` of a block starting at `phase`: the amplitude
      times the sine of the advanced phase, taken BEFORE the wrap. */
  function FrameSample(amplitude: real, sin: real -> real, phase: real, inc: real, k: nat): real {
    amplitude * sin(PhaseAfter(phase, inc, k) + inc)
  }

  /** Splitting a block in two changes no sample: frame k of the second block
      is frame n + k of the whole. */
  lemma SplitBlockSamples(amplitude: real, sin: real -> real, phase: real, inc: real, n: nat, k: nat)
    ensures FrameSample(amplitude, sin, PhaseAfter(phase, inc, n), inc, k)
         == FrameSample(amplitude, sin, phase, inc, n + k)
  {
    PhaseComposes(phase, inc, n, k);
  }

  // ----- interleaved block ---------------------------------------------------

  /** Number of frames the loop `for (i = 0; i < len; i += channels)` visits. */
  function Frames(len: int, channels: int): nat
    requires channels >= 1
    decreases len
  {
    if len <= 0 then 0 else 1 + Frames(len - channels, channels)
  }

  /** What the callback leaves at index `j` of the buffer: channel 0 of frame
      `j / channels` gets the sample times the left gain, channel 1 the same
      sample times the right gain, every other channel keeps its value. */
  function Expected(data: seq<real>, j: int, channels: int, amplitude: real, sin: real -> real,
                    phase: real, inc: real, pan: real): real
    requires channels >= 1
    requires 0 <= j < |data|
  {
    var k := j / channels;
    var m := j % channels;
    if m == 0 then FrameSample(amplitude, sin, phase, inc, k) * LeftGain(pan)
    else if m == 1 then FrameSample(amplitude, sin, phase, inc, k) * RightGain(pan)
    else data[j]
  }

  /** A positive multiple of a positive stride is at least the stride. */
  lemma MultipleAtLeastStride(d: int, channels: int)
    requires d >= 1 && channels >= 1
    ensures d * channels >= channels
  {
    assert d * channels == (d - 1) * channels + channels;
  }

  /** The frame after frame k starts one stride later. */
  lemma NextFrameStart(k: nat, channels: int)
    ensures (k + 1) * channels == k * channels + channels
  {
  }

  /** Euclidean division recovers frame and channel from an interleaved index. */
  lemma FrameIndex(k: nat, channels: int, m: int)
    requires channels >= 1
    requires 0 <= m < channels
    ensures (k * channels + m) / channels == k
    ensures (k * channels + m) % channels == m
  {
    var x := k * channels + m;
    var q := x / channels;
    var r := x % channels;
    assert x == q * channels + r;
    assert (q - k) * channels == m - r;
    if q > k {
      MultipleAtLeastStride(q - k, channels);
    } else if q < k {
      assert (k - q) * channels == r - m;
      MultipleAtLeastStride(k - q, channels);
    }
  }

  /** With more than one channel, a frame start is never the last index of
      the buffer unless the length leaves remainder 1. */
  lemma SecondChannelInBounds(k: nat, channels: int, len: int)
    requires channels >= 2
    requires len % channels != 1
    requires k * channels < len
    ensures k * channels + 1 < len
  {
    if k * channels + 1 == len {
      FrameIndex(k, channels, 1);
    }
  }

  /** Writing one frame extends the finished prefix of the buffer by one
      stride: slots 0 and 1 of frame `k` get the panned sample, the other
      slots of the frame keep their input value. */
  lemma WriteFrame(data: seq<real>, out: seq<real>, out': seq<real>, i: int, k: nat, channels: int,
                   amplitude: real, sin: real -> real, phase: real, inc: real, pan: real, sample: real)
    requires channels >= 1
    requires i == k * channels && 0 <= i < |data| && |out| == |data|
    requires channels == 1 || i + 1 < |data|
    requires forall j :: 0 <= j < i ==> out[j] == Expected(data, j, channels, amplitude, sin, phase, inc, pan)
    requires forall j :: i <= j < |data| ==> out[j] == data[j]
    requires sample == FrameSample(amplitude, sin, phase, inc, k)
    requires |out'| == |out|
    requires out'[i] == sample * LeftGain(pan)
    requires channels > 1 ==> out'[i + 1] == sample * RightGain(pan)
    requires forall j :: 0 <= j < |out| && j != i && (channels == 1 || j != i + 1) ==> out'[j] == out[j]
    ensures |out'| == |data|
    ensures forall j :: 0 <= j < i + channels && j < |data| ==>
      out'[j] == Expected(data, j, channels, amplitude, sin, phase, inc, pan)
    ensures forall j :: i + channels <= j < |data| ==> out'[j] == data[j]
  {
    forall j | i <= j < i + channels && j < |data|
      ensures out'[j] == Expected(data, j, channels, amplitude, sin, phase, inc, pan)
    {
      FrameIndex(k, channels, j - i);
    }
  }

  /** One audio callback. `data` is the buffer, `channels` the interleave
      stride, `phase` the stored phase on entry; the result is the buffer
      after the callback and the stored phase after it. The increment is
      computed once from `frequency` and `samplingFrequency`; `amplitude`
      is the linear gain the generator derived from its dBFS gain.
      The stride must be positive (otherwise the loop never ends), and with
      two or more channels the last frame must have a second slot (otherwise
      `data[i + 1]` is out of bounds). */
  method OnAudioFilterRead(data: seq<real>, channels: int, phase: real,
                           frequency: real, samplingFrequency: real,
                           amplitude: real, pan: real, sin: real -> real)
    returns (out: seq<real>, phase': real)
    requires channels >= 1
    requires channels == 1 || |data| % channels != 1
    requires samplingFrequency > 0.0
    ensures |out| == |data|
    ensures forall j :: 0 <= j < |out| ==>
      out[j] == Expected(data, j, channels, amplitude, sin, phase,
                         Increment(frequency, samplingFrequency), pan)
    ensures phase' == PhaseAfter(phase, Increment(frequency, samplingFrequency), Frames(|data|, channels))
  {
    var inc := Increment(frequency, samplingFrequency);
    var leftVol := LeftGain(pan);
    var rightVol := RightGain(pan);
    out := data;
    phase' := phase;
    var i := 0;
    ghost var k: nat := 0;
    while i < |data|
      invariant i == k * channels && 0 <= i
      invariant |out| == |data|
      invariant k + Frames(|data| - i, channels) == Frames(|data|, channels)
      invariant phase' == PhaseAfter(phase, inc, k)
      invariant forall j :: 0 <= j < i && j < |data| ==>
        out[j] == Expected(data, j, channels, amplitude, sin, phase, inc, pan)
      invariant forall j :: i <= j < |data| ==> out[j] == data[j]
      decreases |data| - i
    {
      phase' := phase' + inc;
      var sample := amplitude * sin(phase');
      assert sample == FrameSample(amplitude, sin, phase, inc, k);
      ghost var before := out;
      out := out[i := sample * leftVol];
      if channels > 1 {
        SecondChannelInBounds(k, channels, |data|);
        out := out[i + 1 := sample * rightVol];
      }
      WriteFrame(data, before, out, i, k, channels, amplitude, sin, phase, inc, pan, sample);
      if phase' > TwoPi {
        phase' := phase' - TwoPi;
      }
      NextFrameStart(k, channels);
      i := i + channels;
      k := k + 1;
    }
  }
}

=== FILE: audiogram.dfy ===
/** Vocabulary shared by calibration, the threshold search and the results
    screen: the test frequencies, the calibration level of a frequency and
    the "no response" sentinel of the audiogram. */
module Audiogram {

  /** The order in which both calibration and the threshold search visit the
      frequencies (Hz). Both components declare this list; it is defined once here. */
  const TestOrder: seq<int> := [1000, 2000, 4000, 8000, 500, 250]

  /** The order in which the results screen reads the audiogram. */
  const ChartOrder: seq<int> := [250, 500, 1000, 2000, 4000, 8000]

  /** The audiogram value meaning "no response up to the level ceiling". */
  const NoResponse: int := -1

  /** A calibration entry: the dBFS level the listener barely heard, or
      positive infinity when the listener heard nothing at any slider level. */
  datatype Level = Dbfs(value: real) | PositiveInfinity

  /** Calibration data: frequency (Hz) to level. */
  type CalibrationMap = map<int, Level>

  /** Audiogram: frequency (Hz) to threshold in dB HL, or `NoResponse`. */
  type AudiogramMap = map<int, int>

  /** No frequency is listed twice. */
  predicate Distinct(fs: seq<int>) {
    forall i, j :: 0 <= i < j < |fs| ==> fs[i] != fs[j]
  }

  lemma TestOrderIsChartOrderPermuted()
    ensures Distinct(TestOrder) && Distinct(ChartOrder)
    ensures |TestOrder| == |ChartOrder| == 6
    ensures forall f :: f in TestOrder <==> f in ChartOrder
  {
  }
}

=== FILE: audiometry.dfy ===
/** The adaptive threshold search (Assets/Scripts/AudiometryTest.cs).

    One pass visits the test frequencies in order. A frequency with no
    finite calibration is skipped and recorded as no response. Otherwise the
    search starts 20 dB above the calibrated level and repeats trials: if the
    stimulus would exceed 0 dBFS the frequency is recorded as no response;
    otherwise the tone is presented and a response window opens. "Heard"
    lowers the level by 10 and counts an ascending response; "did not hear"
    and a timeout both raise the level by 5 and reset the count. Two
    consecutive "heard" responses end the search and record the (already
    lowered) level.

    The coroutine becomes a pure state machine: the state of a trial is
    `Trial(level, ascending, waiting)` and the responses are a finite
    sequence of events. In the original every response window closes, by a
    button or by the 2 s response timer, so each window consumes exactly one
    event. A finite event sequence describes a prefix of the run: when the
    events run out, the model stops in the open window (`Waiting`). The
    generator writes are recorded as a list of `Tone`s; the search never
    writes pan.

    Disabling the test in an open window stops the response timer but leaves
    the window flag set, and nothing clears it before the next pass. The
    next pass then accepts a press during the playback of its first tone as
    an answer; `SearchLeftOpen` and `RunFromLeftOpen` model that pass. */
module Audiometry {
  import opened Wrappers
  import opened Audiogram
  import StaticData

  /** Hearing level every frequency's search starts at (dB HL). */
  const StartLevel: int := 20

  /** Consecutive "heard" responses that accept a threshold. */
  const RequiredResponses: int := 2

  /** What resolves a response window. */
  datatype Response = Heard | DidNotHear | Timeout

  /** The search variables: current hearing level (dB HL), count of
      consecutive "heard" responses, and whether a response window is open. */
  datatype Trial = Trial(level: int, ascending: int, waiting: bool)

  /** The state a frequency's search starts from: the level and the count
      are reset (Assets/Scripts/AudiometryTest.cs:85-86) and the window is
      closed. The window flag is not reset there: a pass entered with the
      flag still set starts its first played tone from `SearchLeftOpen`. */
  const Fresh: Trial := Trial(StartLevel, 0, false)

  // ----- response handlers ----------------------------------------------------

  /** A miss: the count restarts and the level rises by 5 dB; the window
      flag is the caller's business. */
  function OnUserMissed(s: Trial): (r: Trial)
    ensures r.ascending == 0 && r.level == s.level + 5
    ensures r.waiting == s.waiting
  {
    s.(ascending := 0, level := s.level + 5)
  }

  /** "Heard": ignored outside a window; otherwise closes the window, counts
      the response and lowers the level by 10 dB, so that the level plus 10
      per consecutive "heard" response stays the same. */
  function OnUserHeard(s: Trial): (r: Trial)
    ensures !r.waiting
    ensures !s.waiting ==> r == s
    ensures s.waiting ==>
      && r.ascending == s.ascending + 1
      && r.level + 10 * r.ascending == s.level + 10 * s.ascending
  {
    if !s.waiting then s
    else s.(waiting := false, ascending := s.ascending + 1, level := s.level - 10)
  }

  /** "Did not hear": ignored outside a window; otherwise closes it as a miss,
      exactly as the response timer would. */
  function OnUserDidNotHear(s: Trial): (r: Trial)
    ensures r == ResponseTimer(s)
  {
    if !s.waiting then s
    else OnUserMissed(s.(waiting := false))
  }

  /** The response timer firing: a miss if the window is still open. Either
      way the window is closed afterwards. */
  function ResponseTimer(s: Trial): (r: Trial)
    ensures !r.waiting
    ensures !s.waiting ==> r == s
    ensures s.waiting ==> r.ascending == 0 && r.level > s.level
  {
    if s.waiting then OnUserMissed(s.(waiting := false)) else s
  }

  /** Dispatch one event to its handler. */
  function Respond(s: Trial, e: Response): Trial {
    match e
    case Heard => OnUserHeard(s)
    case DidNotHear => OnUserDidNotHear(s)
    case Timeout => ResponseTimer(s)
  }

  /** An event arriving while no window is open changes nothing. */
  lemma IgnoredOutsideWindow(s: Trial, e: Response)
    requires !s.waiting
    ensures Respond(s, e) == s
  {
  }

  /** A timeout is indistinguishable from an explicit "did not hear". */
  lemma TimeoutIsMiss(s: Trial)
    ensures Respond(s, Timeout) == Respond(s, DidNotHear)
  {
  }

  /** Inside a window, "heard" is 10 down and one more ascending response. */
  lemma HeardInWindow(s: Trial)
    requires s.waiting
    ensures Respond(s, Heard) == Trial(s.level - 10, s.ascending + 1, false)
  {
  }

  /** Inside a window, a miss of either kind is 5 up and a count of zero. */
  lemma MissInWindow(s: Trial, e: Response)
    requires s.waiting && e != Heard
    ensures Respond(s, e) == Trial(s.level + 5, 0, false)
  {
  }

  // ----- one frequency ----------------------------------------------------------

  /** A generator write: frequency (Hz), the hearing level it presents and
      the gain (dBFS) the generator is set to. */
  datatype Tone = Tone(frequency: int, levelHL: int, gainDbfs: real)

  /** How one frequency's search ended. */
  datatype Outcome = Threshold(hl: int) | Ceiling | Waiting

  /** The result of searching one frequency: the outcome, the search
      variables at that point, the tones presented in order, and how many
      events were consumed. */
  datatype SearchRun = SearchRun(outcome: Outcome, final: Trial, tones: seq<Tone>, used: nat)

  /** The level change one resolved window causes. */
  function Delta(e: Response): int {
    if e == Heard then -10 else 5
  }

  /** The trial loop for frequency `freq` calibrated at `zero` dBFS, from
      state `s`, consuming one event per presented tone. */
  function Search(freq: int, zero: real, s: Trial, events: seq<Response>): (r: SearchRun)
    requires !s.waiting
    ensures r.used <= |events|
    ensures |r.tones| == r.used + (if r.outcome.Waiting? then 1 else 0)
    ensures forall t :: t in r.tones ==>
      t.frequency == freq && t.gainDbfs == zero + t.levelHL as real && t.gainDbfs <= 0.0
    ensures r.outcome.Ceiling? ==> zero + r.final.level as real > 0.0
    ensures r.outcome.Threshold? ==> r.outcome.hl == r.final.level && r.final.ascending >= RequiredResponses
    ensures r.outcome.Waiting? ==> r.used == |events| && r.final.waiting
    decreases |events|
  {
    var gain := zero + s.level as real;
    if gain > 0.0 then SearchRun(Ceiling, s, [], 0)
    else
      var tone := Tone(freq, s.level, gain);
      if events == [] then SearchRun(Waiting, s.(waiting := true), [tone], 0)
      else
        var next := Respond(s.(waiting := true), events[0]);
        if next.ascending >= RequiredResponses then SearchRun(Threshold(next.level), next, [tone], 1)
        else
          var rest := Search(freq, zero, next, events[1..]);
          SearchRun(rest.outcome, rest.final, [tone] + rest.tones, rest.used + 1)
  }

  /** Number of "heard" events in `es`. */
  function Heards(es: seq<Response>): nat {
    if es == [] then 0 else (if es[0] == Heard then 1 else 0) + Heards(es[1..])
  }

  /** Number of misses (explicit or timed out) in `es`. */
  function Misses(es: seq<Response>): nat {
    if es == [] then 0 else (if es[0] == Heard then 0 else 1) + Misses(es[1..])
  }

  /** The staircase rule along the whole run: the first tone is at the
      starting level, each tone follows the previous one by 10 down after
      "heard" and 5 up after a miss, and the final level is the starting
      level plus 5 per miss minus 10 per "heard" consumed. */
  lemma StaircaseRule(freq: int, zero: real, s: Trial, events: seq<Response>)
    requires !s.waiting
    ensures var r := Search(freq, zero, s, events);
      && (|r.tones| > 0 ==> r.tones[0].levelHL == s.level)
      && (forall i :: 0 <= i < |r.tones| - 1 ==>
            r.tones[i + 1].levelHL == r.tones[i].levelHL + Delta(events[i]))
      && r.final.level == s.level + 5 * Misses(events[..r.used]) - 10 * Heards(events[..r.used])
  {
    StaircaseTones(freq, zero, s, events);
    StaircaseFinal(freq, zero, s, events);
  }

  /** Helper of StaircaseRule: the presented levels follow the staircase. */
  lemma {:induction false} StaircaseTones(freq: int, zero: real, s: Trial, events: seq<Response>)
    requires !s.waiting
    ensures var r := Search(freq, zero, s, events);
      && (|r.tones| > 0 ==> r.tones[0].levelHL == s.level)
      && (forall i :: 0 <= i < |r.tones| - 1 ==>
            r.tones[i + 1].levelHL == r.tones[i].levelHL + Delta(events[i]))
    decreases |events|
  {
    var r := Search(freq, zero, s, events);
    var gain := zero + s.level as real;
    if gain <= 0.0 && events != [] {
      var next := Respond(s.(waiting := true), events[0]);
      assert next.level == s.level + Delta(events[0]);
      if next.ascending < RequiredResponses {
        var rest := Search(freq, zero, next, events[1..]);
        StaircaseTones(freq, zero, next, events[1..]);
        forall i | 0 <= i < |r.tones| - 1
          ensures r.tones[i + 1].levelHL == r.tones[i].levelHL + Delta(events[i])
        {
          if i > 0 {
            assert r.tones[i] == rest.tones[i - 1];
            assert r.tones[i + 1] == rest.tones[i];
            assert events[i] == events[1..][i - 1];
          }
        }
      }
    }
  }

  /** Helper of StaircaseRule: the final level counts the consumed events. */
  lemma {:induction false} StaircaseFinal(freq: int, zero: real, s: Trial, events: seq<Response>)
    requires !s.waiting
    ensures var r := Search(freq, zero, s, events);
      r.final.level == s.level + 5 * Misses(events[..r.used]) - 10 * Heards(events[..r.used])
    decreases |events|
  {
    var r := Search(freq, zero, s, events);
    var gain := zero + s.level as real;
    if gain > 0.0 || events == [] {
      assert events[..r.used] == [];
    } else {
      var next := Respond(s.(waiting := true), events[0]);
      assert next.level == s.level + Delta(events[0]);
      if next.ascending < RequiredResponses {
        var rest := Search(freq, zero, next, events[1..]);
        StaircaseFinal(freq, zero, next, events[1..]);
        assert events[..r.used][0] == events[0];
        assert events[..r.used][1..] == events[1..][..rest.used];
      } else {
        assert events[..r.used] == [events[0]];
        assert events[..r.used][1..] == [];
      }
    }
  }

  /** Acceptance needs two consecutive "heard" responses: a threshold is
      recorded right after a "heard" event (from a fresh count, after two of
      them in a row), no earlier pair of consecutive "heard" events occurred,
      and the recorded value is 10 below the last presented level. */
  lemma {:induction false} ThresholdNeedsTwoHeards(freq: int, zero: real, s: Trial, events: seq<Response>)
    requires !s.waiting
    requires 0 <= s.ascending < RequiredResponses
    ensures var r := Search(freq, zero, s, events);
      r.outcome.Threshold? ==>
        && r.used >= 1
        && events[r.used - 1] == Heard
        && r.outcome.hl == r.tones[r.used - 1].levelHL - 10
        && (r.used >= 2 || s.ascending == 1)
        && (r.used >= 2 ==> events[r.used - 2] == Heard)
    ensures var r := Search(freq, zero, s, events);
      forall i :: 0 <= i && i + 1 < r.used - (if r.outcome.Threshold? then 1 else 0) ==>
        !(events[i] == Heard && events[i + 1] == Heard)
    ensures var r := Search(freq, zero, s, events);
      s.ascending == 1 && r.used >= 1 && events[0] == Heard ==> r.outcome.Threshold? && r.used == 1
    decreases |events|
  {
    var r := Search(freq, zero, s, events);
    var gain := zero + s.level as real;
    if gain > 0.0 || events == [] {
    } else {
      var next := Respond(s.(waiting := true), events[0]);
      if next.ascending < RequiredResponses {
        var rest := Search(freq, zero, next, events[1..]);
        ThresholdNeedsTwoHeards(freq, zero, next, events[1..]);
        assert next.ascending == (if events[0] == Heard then s.ascending + 1 else 0);
        if r.outcome.Threshold? {
          assert r.tones[r.used - 1] == rest.tones[rest.used - 1];
          assert events[r.used - 1] == events[1..][rest.used - 1];
          if rest.used >= 2 {
            assert events[r.used - 2] == events[1..][rest.used - 2];
          }
        }
        forall i | 0 <= i && i + 1 < r.used - (if r.outcome.Threshold? then 1 else 0)
          ensures !(events[i] == Heard && events[i + 1] == Heard)
        {
          if i > 0 {
            assert events[i] == events[1..][i - 1];
            assert events[i + 1] == events[1..][i];
          } else if events[0] == Heard {
            assert next.ascending == 1;
            assert events[1] == events[1..][0];
          }
        }
      }
    }
  }

  /** Every level the search reaches is the starting level plus a multiple
      of 5, so from 20 dB HL a recorded threshold is a multiple of 5 and can
      never be mistaken for the no-response sentinel -1. */
  lemma LevelsStayOnGrid(freq: int, zero: real, events: seq<Response>)
    ensures var r := Search(freq, zero, Fresh, events);
      && r.final.level % 5 == 0
      && (forall t :: t in r.tones ==> t.levelHL % 5 == 0)
      && (r.outcome.Threshold? ==> r.outcome.hl % 5 == 0 && r.outcome.hl != NoResponse)
  {
    var r := Search(freq, zero, Fresh, events);
    StaircaseRule(freq, zero, Fresh, events);
    GridCombination(Misses(events[..r.used]), Heards(events[..r.used]));
    forall t | t in r.tones
      ensures t.levelHL % 5 == 0
    {
      var i :| 0 <= i < |r.tones| && r.tones[i] == t;
      ToneLevelOnGrid(freq, zero, events, i);
    }
  }

  /** Helper of LevelsStayOnGrid: 20 plus 5 per miss minus 10 per "heard" is
      a multiple of 5. */
  lemma GridCombination(misses: int, heards: int)
    ensures (StartLevel + 5 * misses - 10 * heards) % 5 == 0
  {
    assert StartLevel + 5 * misses - 10 * heards == 5 * (4 + misses - 2 * heards);
  }

  /** Helper of LevelsStayOnGrid: one staircase step keeps a level on the grid. */
  lemma GridStep(level: int, e: Response)
    requires level % 5 == 0
    ensures (level + Delta(e)) % 5 == 0
  {
  }

  /** Helper of LevelsStayOnGrid: the i-th tone's level is a multiple of 5. */
  lemma {:induction false} ToneLevelOnGrid(freq: int, zero: real, events: seq<Response>, i: nat)
    requires i < |Search(freq, zero, Fresh, events).tones|
    ensures Search(freq, zero, Fresh, events).tones[i].levelHL % 5 == 0
  {
    var r := Search(freq, zero, Fresh, events);
    StaircaseRule(freq, zero, Fresh, events);
    if i > 0 {
      ToneLevelOnGrid(freq, zero, events, i - 1);
      assert r.tones[i].levelHL == r.tones[i - 1].levelHL + Delta(events[i - 1]);
      GridStep(r.tones[i - 1].levelHL, events[i - 1]);
    }
  }

  /** `n` alternations of "heard" and "did not hear". */
  function Alternating(n: nat): (es: seq<Response>)
    ensures |es| == 2 * n
  {
    if n == 0 then [] else [Heard, DidNotHear] + Alternating(n - 1)
  }

  /** The search need not end: alternating "heard" and "did not hear" lowers
      the level by 5 per pair and never reaches two consecutive "heard"
      responses, so after any number of pairs the search is still waiting. */
  lemma {:induction false} AlternationNeverSettles(freq: int, zero: real, level: int, n: nat)
    requires zero + level as real <= 0.0
    ensures var r := Search(freq, zero, Trial(level, 0, false), Alternating(n));
      && r.outcome.Waiting?
      && r.used == 2 * n
      && r.final.level == level - 5 * n
    decreases n
  {
    if n > 0 {
      var es := Alternating(n);
      assert es[0] == Heard && es[1] == DidNotHear && es[2..] == Alternating(n - 1);
      var s1 := Trial(level - 10, 1, false);
      assert Search(freq, zero, Trial(level, 0, false), es).tones[0].levelHL == level;
      assert Respond(Trial(level, 0, true), es[0]) == s1;
      assert es[1..][0] == DidNotHear && es[1..][1..] == Alternating(n - 1);
      AlternationNeverSettles(freq, zero, level - 5, n - 1);
    }
  }

  /** Two "heard" responses in a row from the start: 20 then 10 dB HL are
      presented and 0 dB HL is recorded. */
  lemma ExampleHeardTwice()
    ensures Search(1000, -50.0, Fresh, [Heard, Heard])
         == SearchRun(Threshold(0), Trial(0, 2, false), [Tone(1000, 20, -30.0), Tone(1000, 10, -40.0)], 2)
  {
  }

  /** Three misses (one of them a timeout), then two "heard": the levels
      presented are 20, 25, 30, 35, 25 and 15 dB HL is recorded. */
  lemma ExampleEscalation()
    ensures var r := Search(1000, -50.0, Fresh, [DidNotHear, Timeout, DidNotHear, Heard, Heard, Heard]);
      && r.outcome == Threshold(15)
      && r.used == 5
      && seq(|r.tones|, i requires 0 <= i < |r.tones| => r.tones[i].levelHL) == [20, 25, 30, 35, 25]
  {
    var e3: seq<Response> := [Heard, Heard, Heard];
    var e2: seq<Response> := [DidNotHear] + e3;
    var e1: seq<Response> := [Timeout] + e2;
    var e0: seq<Response> := [DidNotHear] + e1;
    var r3 := Search(1000, -50.0, Trial(35, 0, false), e3);
    assert r3 == SearchRun(Threshold(15), Trial(15, 2, false), [Tone(1000, 35, -15.0), Tone(1000, 25, -25.0)], 2) by {
      assert e3[1..] == [Heard, Heard];
    }
    var r2 := Search(1000, -50.0, Trial(30, 0, false), e2);
    assert r2 == SearchRun(Threshold(15), Trial(15, 2, false), [Tone(1000, 30, -20.0)] + r3.tones, 3) by {
      assert e2[1..] == e3;
    }
    var r1 := Search(1000, -50.0, Trial(25, 0, false), e1);
    assert r1 == SearchRun(Threshold(15), Trial(15, 2, false), [Tone(1000, 25, -25.0)] + r2.tones, 4) by {
      assert e1[1..] == e2;
    }
    var r0 := Search(1000, -50.0, Fresh, e0);
    assert r0 == SearchRun(Threshold(15), Trial(15, 2, false), [Tone(1000, 20, -30.0)] + r1.tones, 5) by {
      assert e0[1..] == e1;
    }
    assert e0 == [DidNotHear, Timeout, DidNotHear, Heard, Heard, Heard];
    assert r0.tones == [Tone(1000, 20, -30.0), Tone(1000, 25, -25.0), Tone(1000, 30, -20.0), Tone(1000, 35, -15.0), Tone(1000, 25, -25.0)];
  }

  /** The first stimulus is 20 dB above the calibrated level, so a frequency
      calibrated above -20 dBFS ends its search at once with no tone
      presented, whatever the responses; one calibrated at or below -20 dBFS
      always presents its first tone at 20 dB HL. */
  lemma CeilingAtStart(freq: int, zero: real, events: seq<Response>)
    ensures zero > -20.0 <==> Search(freq, zero, Fresh, events) == SearchRun(Ceiling, Fresh, [], 0)
    ensures zero <= -20.0 ==> Search(freq, zero, Fresh, events).tones[0] == Tone(freq, StartLevel, zero + 20.0)
  {
  }

  // ----- the whole pass -------------------------------------------------------

  /** The result of the pass: completed with a full audiogram, or suspended
      in a response window of frequency `frequency`. */
  datatype SessionRun =
    | Completed(results: AudiogramMap, tones: seq<Tone>, used: nat)
    | Suspended(results: AudiogramMap, frequency: int, trial: Trial, tones: seq<Tone>, used: nat)

  /** A frequency is skipped when its calibration is missing or +∞. */
  predicate Skipped(cal: CalibrationMap, f: int) {
    f !in cal || cal[f].PositiveInfinity?
  }

  /** Prefix the tones and event count of one frequency to the rest of the pass. */
  function Prepend(tones: seq<Tone>, used: nat, rest: SessionRun): SessionRun {
    match rest
    case Completed(res, ts, u) => Completed(res, tones + ts, used + u)
    case Suspended(res, f, t, ts, u) => Suspended(res, f, t, tones + ts, used + u)
  }

  /** The frequency loop over `freqs`, with `results` recorded so far. It
      only adds entries, and only for listed frequencies; a completed pass
      has an entry for every listed frequency and has consumed one event per
      presented tone; a suspended pass has used up all events and waits in an
      open window of a listed frequency for the answer to its last tone. */
  function RunFrom(freqs: seq<int>, cal: CalibrationMap, results: AudiogramMap, events: seq<Response>): (run: SessionRun)
    ensures run.used <= |events|
    ensures forall f :: f in run.results ==> f in results || f in freqs
    ensures forall f :: f in results ==> f in run.results
    ensures run.Completed? ==> forall f :: f in freqs ==> f in run.results
    ensures run.Suspended? ==> run.frequency in freqs && run.trial.waiting && run.used == |events|
    ensures run.Completed? ==> run.used == |run.tones|
    ensures run.Suspended? ==> |run.tones| == run.used + 1
    decreases |freqs|
  {
    if freqs == [] then Completed(results, [], 0)
    else
      var f := freqs[0];
      if Skipped(cal, f) then RunFrom(freqs[1..], cal, results[f := NoResponse], events)
      else
        var r := Search(f, cal[f].value, Fresh, events);
        match r.outcome
        case Waiting => Suspended(results, f, r.final, r.tones, r.used)
        case Ceiling => Prepend(r.tones, r.used, RunFrom(freqs[1..], cal, results[f := NoResponse], events[r.used..]))
        case Threshold(t) => Prepend(r.tones, r.used, RunFrom(freqs[1..], cal, results[f := t], events[r.used..]))
  }

  /** The test coroutine: one pass over the test order from an empty
      audiogram. A completed pass has an entry for exactly the test
      frequencies; a suspended one has consumed every event. */
  function RunTest(cal: CalibrationMap, events: seq<Response>): (run: SessionRun)
    ensures run.used <= |events|
    ensures run.Completed? ==> forall f :: f in run.results <==> f in TestOrder
    ensures run.Suspended? ==> run.frequency in TestOrder && run.used == |events|
  {
    RunFrom(TestOrder, cal, map[], events)
  }

  /** The outcome an audiogram entry stands for: -1 the ceiling, any other
      value a threshold at that level. */
  function Recorded(v: int): Outcome {
    if v == NoResponse then Ceiling else Threshold(v)
  }

  /** The number of tones in `ts` presented at one of the frequencies `fs`. */
  function TonesAt(ts: seq<Tone>, fs: seq<int>): nat {
    if ts == [] then 0 else (if ts[0].frequency in fs then 1 else 0) + TonesAt(ts[1..], fs)
  }

  lemma {:induction false} TonesAtAppend(a: seq<Tone>, b: seq<Tone>, fs: seq<int>)
    ensures TonesAt(a + b, fs) == TonesAt(a, fs) + TonesAt(b, fs)
    decreases |a|
  {
    if a != [] {
      assert (a + b)[0] == a[0] && (a + b)[1..] == a[1..] + b;
      TonesAtAppend(a[1..], b, fs);
    } else {
      assert a + b == b;
    }
  }

  lemma {:induction false} TonesAtAll(ts: seq<Tone>, fs: seq<int>)
    requires forall t :: t in ts ==> t.frequency in fs
    ensures TonesAt(ts, fs) == |ts|
    decreases |ts|
  {
    if ts != [] {
      assert ts[0] in ts;
      assert forall t :: t in ts[1..] ==> t in ts;
      TonesAtAll(ts[1..], fs);
    }
  }

  lemma {:induction false} TonesAtNone(ts: seq<Tone>)
    ensures TonesAt(ts, []) == 0
    decreases |ts|
  {
    if ts != [] {
      TonesAtNone(ts[1..]);
    }
  }

  lemma {:induction false} TonesAtSame(ts: seq<Tone>, fs: seq<int>, gs: seq<int>)
    requires forall t :: t in ts ==> (t.frequency in fs <==> t.frequency in gs)
    ensures TonesAt(ts, fs) == TonesAt(ts, gs)
    decreases |ts|
  {
    if ts != [] {
      assert ts[0] in ts;
      assert forall t :: t in ts[1..] ==> t in ts;
      TonesAtSame(ts[1..], fs, gs);
    }
  }

  /** Frequency `f` has an entry in `results`, and it is what the search of
      `f` finds on the events after the first `k`. */
  ghost predicate FoundAt(f: int, cal: CalibrationMap, events: seq<Response>, k: nat, results: AudiogramMap)
    requires !Skipped(cal, f)
  {
    f in results && k <= |events| && Search(f, cal[f].value, Fresh, events[k..]).outcome == Recorded(results[f])
  }

  /** Every calibrated frequency of `freqs` has an entry in `results`, and
      that entry is what its search finds on `events` once the answers to the
      tones of the frequencies before it in `freqs` are used up. */
  ghost predicate TurnsRecorded(freqs: seq<int>, cal: CalibrationMap, events: seq<Response>,
                                tones: seq<Tone>, results: AudiogramMap)
  {
    forall i :: 0 <= i < |freqs| && !Skipped(cal, freqs[i]) ==>
      FoundAt(freqs[i], cal, events, TonesAt(tones, freqs[..i]), results)
  }

  /** Skipping the first `h` events and then `k` more is skipping `h + k`. */
  lemma FoundShift(f: int, cal: CalibrationMap, events: seq<Response>, h: nat, k: nat, n: nat, results: AudiogramMap)
    requires !Skipped(cal, f) && h <= |events| && n == h + k
    requires FoundAt(f, cal, events[h..], k, results)
    ensures FoundAt(f, cal, events, n, results)
  {
    assert events[h..][k..] == events[h + k..];
  }

  /** Helper of TurnAfterHead: with the head tones all at the first frequency,
      a later frequency's turn comes after all of them and then after the rest's
      tones at the frequencies in between. */
  lemma TurnCount(freqs: seq<int>, head: seq<Tone>, rest: seq<Tone>, i: int)
    requires 0 < i <= |freqs| && freqs[0] !in freqs[1..]
    requires forall t :: t in head ==> t.frequency == freqs[0]
    requires forall t :: t in rest ==> t.frequency in freqs[1..]
    ensures TonesAt(head + rest, freqs[..i]) == |head| + TonesAt(rest, freqs[1..][..i - 1])
  {
    TonesAtAppend(head, rest, freqs[..i]);
    assert freqs[0] in freqs[..i];
    TonesAtAll(head, freqs[..i]);
    assert freqs[..i] == [freqs[0]] + freqs[1..][..i - 1];
    TonesAtSame(rest, freqs[..i], freqs[1..][..i - 1]);
  }

  /** Helper of HeadTurns: a later frequency's turn, counted in the events
      after the head tones, is the same turn counted in all events. */
  lemma LaterTurn(freqs: seq<int>, cal: CalibrationMap, events: seq<Response>,
                  head: seq<Tone>, rest: seq<Tone>, results: AudiogramMap, i: int)
    requires 0 < i < |freqs| && freqs[0] !in freqs[1..] && !Skipped(cal, freqs[i]) && |head| <= |events|
    requires forall t :: t in head ==> t.frequency == freqs[0]
    requires forall t :: t in rest ==> t.frequency in freqs[1..]
    requires FoundAt(freqs[i], cal, events[|head|..], TonesAt(rest, freqs[1..][..i - 1]), results)
    ensures FoundAt(freqs[i], cal, events, TonesAt(head + rest, freqs[..i]), results)
  {
    TurnCount(freqs, head, rest, i);
    FoundShift(freqs[i], cal, events, |head|, TonesAt(rest, freqs[1..][..i - 1]), TonesAt(head + rest, freqs[..i]), results);
  }

  /** One frequency's turn out of TurnsRecorded. */
  lemma TurnOf(freqs: seq<int>, cal: CalibrationMap, events: seq<Response>,
               tones: seq<Tone>, results: AudiogramMap, j: int)
    requires TurnsRecorded(freqs, cal, events, tones, results)
    requires 0 <= j < |freqs| && !Skipped(cal, freqs[j])
    ensures FoundAt(freqs[j], cal, events, TonesAt(tones, freqs[..j]), results)
  {
  }

  /** Helper of LoopTurns: prefixing the first frequency's turn to the turns
      of the others keeps every turn's search recorded. */
  lemma HeadTurns(freqs: seq<int>, cal: CalibrationMap, events: seq<Response>,
                  head: seq<Tone>, rest: seq<Tone>, results: AudiogramMap)
    requires freqs != [] && freqs[0] !in freqs[1..] && |head| <= |events|
    requires forall t :: t in head ==> t.frequency == freqs[0]
    requires forall t :: t in rest ==> t.frequency in freqs[1..]
    requires !Skipped(cal, freqs[0]) ==>
      freqs[0] in results && Search(freqs[0], cal[freqs[0]].value, Fresh, events).outcome == Recorded(results[freqs[0]])
    requires TurnsRecorded(freqs[1..], cal, events[|head|..], rest, results)
    ensures TurnsRecorded(freqs, cal, events, head + rest, results)
  {
    forall i | 0 <= i < |freqs| && !Skipped(cal, freqs[i])
      ensures FoundAt(freqs[i], cal, events, TonesAt(head + rest, freqs[..i]), results)
    {
      if i == 0 {
        assert freqs[..0] == [];
        TonesAtNone(head + rest);
        assert events[0..] == events;
      } else {
        assert freqs[1..][i - 1] == freqs[i];
        TurnOf(freqs[1..], cal, events[|head|..], rest, results, i - 1);
        LaterTurn(freqs, cal, events, head, rest, results, i);
      }
    }
  }

  /** Every tone of the loop belongs to one of its frequencies and stays at
      or below 0 dBFS. */
  lemma {:induction false} LoopTones(freqs: seq<int>, cal: CalibrationMap,
                                     results: AudiogramMap, events: seq<Response>)
    ensures forall t :: t in RunFrom(freqs, cal, results, events).tones ==> t.frequency in freqs && t.gainDbfs <= 0.0
    decreases |freqs|
  {
    if freqs != [] {
      var f := freqs[0];
      assert forall g :: g in freqs[1..] ==> g in freqs;
      if Skipped(cal, f) {
        LoopTones(freqs[1..], cal, results[f := NoResponse], events);
      } else {
        var r := Search(f, cal[f].value, Fresh, events);
        if !r.outcome.Waiting? {
          var v := if r.outcome.Ceiling? then NoResponse else r.outcome.hl;
          LoopTones(freqs[1..], cal, results[f := v], events[r.used..]);
        }
      }
    }
  }

  /** The loop leaves the entries of frequencies it does not visit alone. */
  lemma {:induction false} LoopKeeps(freqs: seq<int>, cal: CalibrationMap,
                                     results: AudiogramMap, events: seq<Response>)
    ensures var run := RunFrom(freqs, cal, results, events);
      forall f :: f in results && f !in freqs ==> run.results[f] == results[f]
    decreases |freqs|
  {
    if freqs != [] {
      var f := freqs[0];
      assert forall g :: g in freqs[1..] ==> g in freqs;
      if Skipped(cal, f) {
        LoopKeeps(freqs[1..], cal, results[f := NoResponse], events);
      } else {
        var r := Search(f, cal[f].value, Fresh, events);
        if !r.outcome.Waiting? {
          var v := if r.outcome.Ceiling? then NoResponse else r.outcome.hl;
          LoopKeeps(freqs[1..], cal, results[f := v], events[r.used..]);
        }
      }
    }
  }

  /** Helper of LoopTurns: a searched first frequency whose search ended,
      followed by the completed loop over the others. */
  lemma SearchedHeadTurns(freqs: seq<int>, cal: CalibrationMap, events: seq<Response>,
                          r: SearchRun, v: int, rest: SessionRun)
    requires freqs != [] && freqs[0] !in freqs[1..] && !Skipped(cal, freqs[0])
    requires r == Search(freqs[0], cal[freqs[0]].value, Fresh, events) && !r.outcome.Waiting?
    requires r.outcome.Ceiling? ==> v == NoResponse
    requires r.outcome.Threshold? ==> v == r.outcome.hl && v != NoResponse
    requires forall t :: t in rest.tones ==> t.frequency in freqs[1..]
    requires freqs[0] in rest.results && rest.results[freqs[0]] == v
    requires TurnsRecorded(freqs[1..], cal, events[r.used..], rest.tones, rest.results)
    ensures TurnsRecorded(freqs, cal, events, r.tones + rest.tones, rest.results)
  {
    HeadTurns(freqs, cal, events, r.tones, rest.tones, rest.results);
  }

  /** A completed loop over distinct frequencies records, for every searched
      frequency, the outcome of its search on the events left at its turn. */
  lemma {:induction false} LoopTurns(freqs: seq<int>, cal: CalibrationMap,
                                     results: AudiogramMap, events: seq<Response>)
    requires Distinct(freqs)
    ensures var run := RunFrom(freqs, cal, results, events);
      run.Completed? ==> TurnsRecorded(freqs, cal, events, run.tones, run.results)
    decreases |freqs|
  {
    if freqs != [] {
      var f := freqs[0];
      assert Distinct(freqs[1..]);
      assert f !in freqs[1..];
      var run := RunFrom(freqs, cal, results, events);
      if Skipped(cal, f) {
        LoopTurns(freqs[1..], cal, results[f := NoResponse], events);
        LoopTones(freqs[1..], cal, results[f := NoResponse], events);
        if run.Completed? {
          var none: seq<Tone> := [];
          assert none + run.tones == run.tones && events[|none|..] == events;
          HeadTurns(freqs, cal, events, none, run.tones, run.results);
        }
      } else {
        var r := Search(f, cal[f].value, Fresh, events);
        LevelsStayOnGrid(f, cal[f].value, events);
        if !r.outcome.Waiting? {
          var v := if r.outcome.Ceiling? then NoResponse else r.outcome.hl;
          var rest := RunFrom(freqs[1..], cal, results[f := v], events[r.used..]);
          assert run == Prepend(r.tones, r.used, rest);
          LoopTurns(freqs[1..], cal, results[f := v], events[r.used..]);
          LoopTones(freqs[1..], cal, results[f := v], events[r.used..]);
          LoopKeeps(freqs[1..], cal, results[f := v], events[r.used..]);
          if run.Completed? {
            SearchedHeadTurns(freqs, cal, events, r, v, rest);
          }
        }
      }
    }
  }

  /** A completed loop over distinct frequencies records exactly one entry per
      frequency and keeps earlier entries; a skipped frequency gets -1 and no
      tone; every searched frequency gets the outcome of its search on the
      events that remain when its turn comes, that is, after the answers to
      the tones of the frequencies before it; every other entry is -1 or a
      multiple of 5; every tone belongs to one of the frequencies and stays at
      or below 0 dBFS. */
  lemma {:induction false} LoopRecordsEachFrequency(freqs: seq<int>, cal: CalibrationMap,
                                                    results: AudiogramMap, events: seq<Response>)
    requires Distinct(freqs)
    ensures var run := RunFrom(freqs, cal, results, events);
      forall t :: t in run.tones ==> t.frequency in freqs && t.gainDbfs <= 0.0
    ensures var run := RunFrom(freqs, cal, results, events);
      run.Completed? ==>
        && (forall f :: f in run.results <==> f in results || f in freqs)
        && (forall f :: f in results && f !in freqs ==> run.results[f] == results[f])
        && (forall f :: f in freqs && Skipped(cal, f) ==>
              run.results[f] == NoResponse && forall t :: t in run.tones ==> t.frequency != f)
        && (forall f :: f in freqs ==> run.results[f] == NoResponse || run.results[f] % 5 == 0)
        && TurnsRecorded(freqs, cal, events, run.tones, run.results)
    decreases |freqs|
  {
    LoopTones(freqs, cal, results, events);
    LoopKeeps(freqs, cal, results, events);
    LoopTurns(freqs, cal, results, events);
    if freqs != [] {
      var f := freqs[0];
      assert Distinct(freqs[1..]);
      assert forall g :: g in freqs[1..] ==> g != f;
      assert forall g :: g in freqs <==> g == f || g in freqs[1..];
      if Skipped(cal, f) {
        LoopRecordsEachFrequency(freqs[1..], cal, results[f := NoResponse], events);
      } else {
        var r := Search(f, cal[f].value, Fresh, events);
        LevelsStayOnGrid(f, cal[f].value, events);
        if !r.outcome.Waiting? {
          var v := if r.outcome.Ceiling? then NoResponse else r.outcome.hl;
          LoopRecordsEachFrequency(freqs[1..], cal, results[f := v], events[r.used..]);
        }
      }
    }
  }

  /** Once the pass completes, the audiogram has exactly one entry per test
      frequency; uncalibrated frequencies are -1 and were never presented;
      every other entry is the outcome of that frequency's search on the
      events after the answers to the earlier frequencies' tones. */
  lemma CompletedPass(cal: CalibrationMap, events: seq<Response>)
    ensures var run := RunTest(cal, events);
      run.Completed? ==>
        && (forall f :: f in run.results <==> f in TestOrder)
        && (forall f :: f in TestOrder && Skipped(cal, f) ==>
              run.results[f] == NoResponse && forall t :: t in run.tones ==> t.frequency != f)
        && (forall f :: f in TestOrder ==> run.results[f] == NoResponse || run.results[f] % 5 == 0)
        && TurnsRecorded(TestOrder, cal, events, run.tones, run.results)
    ensures forall t :: t in RunTest(cal, events).tones ==> t.gainDbfs <= 0.0
  {
    TestOrderIsChartOrderPermuted();
    LoopRecordsEachFrequency(TestOrder, cal, map[], events);
  }

  // ----- a response window left open -------------------------------------------

  /** A button press that arrives while a tone is still playing. */
  datatype Press = PressHeard | PressDidNotHear

  /** The response a press dispatches. */
  function PressResponse(p: Press): Response {
    match p
    case PressHeard => Heard
    case PressDidNotHear => DidNotHear
  }

  /** The first search of a pass entered with the window flag still set. The
      ceiling check and the first tone are those of `Search`; a ceiling
      presents nothing and leaves the flag set. During the first tone's
      playback the press `early`, if any, is handled as an answer in the stale
      window; then the tone's own window opens as usual. */
  function SearchLeftOpen(freq: int, zero: real, early: Option<Press>, events: seq<Response>): (r: SearchRun)
    ensures r.used <= |events|
    ensures |r.tones| == r.used + (if r.outcome.Waiting? then 1 else 0)
    ensures forall t :: t in r.tones ==> t.frequency == freq && t.gainDbfs <= 0.0
    ensures r.tones == [] <==> zero + StartLevel as real > 0.0
    ensures r.tones == [] ==> r == SearchRun(Ceiling, Fresh.(waiting := true), [], 0)
    ensures r.outcome.Waiting? ==> r.used == |events| && r.final.waiting
  {
    var gain := zero + StartLevel as real;
    if gain > 0.0 then SearchRun(Ceiling, Fresh.(waiting := true), [], 0)
    else
      var tone := Tone(freq, StartLevel, gain);
      var answered := if early.Some? then Respond(Fresh.(waiting := true), PressResponse(early.value))
                      else Fresh.(waiting := true);
      var inWindow := answered.(waiting := true);
      if events == [] then SearchRun(Waiting, inWindow, [tone], 0)
      else
        var next := Respond(inWindow, events[0]);
        if next.ascending >= RequiredResponses then SearchRun(Threshold(next.level), next, [tone], 1)
        else
          var rest := Search(freq, zero, next, events[1..]);
          SearchRun(rest.outcome, rest.final, [tone] + rest.tones, rest.used + 1)
  }

  /** The frequency loop entered with the window flag still set. Until a tone
      plays the flag stays set: skipped frequencies and ceilings on the first
      trial pass it on. The first frequency that plays a tone is searched by
      `SearchLeftOpen`, and the loop goes on as `RunFrom`. The same bounds
      as for `RunFrom` hold. */
  function RunFromLeftOpen(freqs: seq<int>, cal: CalibrationMap, results: AudiogramMap,
                           early: Option<Press>, events: seq<Response>): (run: SessionRun)
    ensures run.used <= |events|
    ensures forall f :: f in run.results ==> f in results || f in freqs
    ensures forall f :: f in results ==> f in run.results
    ensures run.Completed? ==> forall f :: f in freqs ==> f in run.results
    ensures run.Suspended? ==> run.frequency in freqs && run.trial.waiting && run.used == |events|
    ensures run.Completed? ==> run.used == |run.tones|
    ensures run.Suspended? ==> |run.tones| == run.used + 1
    decreases |freqs|
  {
    if freqs == [] then Completed(results, [], 0)
    else
      var f := freqs[0];
      if Skipped(cal, f) then RunFromLeftOpen(freqs[1..], cal, results[f := NoResponse], early, events)
      else
        var r := SearchLeftOpen(f, cal[f].value, early, events);
        if r.tones == [] then RunFromLeftOpen(freqs[1..], cal, results[f := NoResponse], early, events)
        else
          match r.outcome
          case Waiting => Suspended(results, f, r.final, r.tones, r.used)
          case Ceiling => Prepend(r.tones, r.used, RunFrom(freqs[1..], cal, results[f := NoResponse], events[r.used..]))
          case Threshold(t) => Prepend(r.tones, r.used, RunFrom(freqs[1..], cal, results[f := t], events[r.used..]))
  }

  /** The test coroutine started with the window flag still set. A completed
      pass has an entry for exactly the test frequencies; a suspended one has
      consumed every event. */
  function RunTestLeftOpen(cal: CalibrationMap, early: Option<Press>, events: seq<Response>): (run: SessionRun)
    ensures run.used <= |events|
    ensures run.Completed? ==> forall f :: f in run.results <==> f in TestOrder
    ensures run.Suspended? ==> run.frequency in TestOrder && run.used == |events|
  {
    RunFromLeftOpen(TestOrder, cal, map[], early, events)
  }

  /** Without a press during the first tone the stale flag changes nothing:
      the loop is the ordinary one. */
  lemma {:induction false} LeftOpenWithoutPress(freqs: seq<int>, cal: CalibrationMap,
                                                results: AudiogramMap, events: seq<Response>)
    ensures RunFromLeftOpen(freqs, cal, results, None, events) == RunFrom(freqs, cal, results, events)
    decreases |freqs|
  {
    if freqs != [] {
      var f := freqs[0];
      if Skipped(cal, f) {
        LeftOpenWithoutPress(freqs[1..], cal, results[f := NoResponse], events);
      } else {
        var zero := cal[f].value;
        if zero + StartLevel as real > 0.0 {
          LeftOpenWithoutPress(freqs[1..], cal, results[f := NoResponse], events);
          var rest := RunFrom(freqs[1..], cal, results[f := NoResponse], events);
          assert events[0..] == events;
          assert [] + rest.tones == rest.tones;
        } else {
          assert SearchLeftOpen(f, zero, None, events) == Search(f, zero, Fresh, events);
        }
      }
    }
  }

  /** A press during the first tone answers that tone early: the search goes
      on exactly as if the press had been the answer in the tone's window,
      but without presenting the tone again, so it ends one event and one
      tone sooner with the same outcome and final state. The second
      requirement says that the ordinary search's second tone is not cut off
      by the ceiling. */
  lemma EarlyPressAnswersFirstTone(freq: int, zero: real, p: Press, events: seq<Response>)
    requires zero + StartLevel as real <= 0.0
    requires zero + Respond(Fresh.(waiting := true), PressResponse(p)).level as real <= 0.0
    ensures var early := SearchLeftOpen(freq, zero, Some(p), events);
      var answered := Search(freq, zero, Fresh, [PressResponse(p)] + events);
      && early.outcome == answered.outcome
      && early.final == answered.final
      && early.used + 1 == answered.used
      && 2 <= |answered.tones|
      && early.tones == [answered.tones[0]] + answered.tones[2..]
  {
    var es := [PressResponse(p)] + events;
    assert es[0] == PressResponse(p) && es[1..] == events;
    var tone := Tone(freq, StartLevel, zero + StartLevel as real);
    var next := Respond(Fresh.(waiting := true), PressResponse(p));
    assert next.ascending < RequiredResponses && !next.waiting;
    var second := Search(freq, zero, next, events);
    var answered := Search(freq, zero, Fresh, es);
    assert answered == SearchRun(second.outcome, second.final, [tone] + second.tones, second.used + 1);
    var tone2 := Tone(freq, next.level, zero + next.level as real);
    if events == [] {
      assert second == SearchRun(Waiting, next.(waiting := true), [tone2], 0);
    } else {
      var n2 := Respond(next.(waiting := true), events[0]);
      if n2.ascending >= RequiredResponses {
        assert second == SearchRun(Threshold(n2.level), n2, [tone2], 1);
      } else {
        var rest := Search(freq, zero, n2, events[1..]);
        assert second == SearchRun(rest.outcome, rest.final, [tone2] + rest.tones, rest.used + 1);
        assert ([tone] + second.tones)[2..] == rest.tones;
      }
    }
  }

  /** The stale window in action: calibrated at or below -20 dBFS, "heard"
      during the first tone and "heard" in its window record a threshold of
      0 dB HL after a single tone at 20 dB HL. The ordinary search, given the
      same single "heard", only lowers the level and presents a second tone
      at 10 dB HL. */
  lemma StaleWindowEarlyThreshold(freq: int, zero: real)
    requires zero + StartLevel as real <= 0.0
    ensures SearchLeftOpen(freq, zero, Some(PressHeard), [Heard])
      == SearchRun(Threshold(0), Trial(0, 2, false), [Tone(freq, 20, zero + 20.0)], 1)
    ensures var ordinary := Search(freq, zero, Fresh, [Heard]);
      ordinary.outcome == Waiting && ordinary.tones == [Tone(freq, 20, zero + 20.0), Tone(freq, 10, zero + 10.0)]
  {
    var next := Trial(10, 1, false);
    assert Search(freq, zero, Fresh, [Heard]).tones == [Tone(freq, 20, zero + 20.0)] + Search(freq, zero, next, []).tones;
  }

  // ----- entry and publication -------------------------------------------------

  /** Enabling the test panel without calibration data shows an error. */
  datatype TestError = CalibrationNotFound

  /** Enabling the test panel: refuse when no calibration has been published,
      otherwise clear the audiogram and run the pass on the published map,
      answering the tones with the given events. `windowOpen` is the window
      flag as the last disable left it: set exactly when that pass was
      suspended in an open window, since disabling stops the timer but not
      the flag. `early` is the press, if any, during the playback of the
      first tone the pass plays. With the flag clear, or with no such press,
      the pass is the ordinary one. */
  function OnEnable(calibration: Option<CalibrationMap>, windowOpen: bool, early: Option<Press>,
                    events: seq<Response>): (r: Result<SessionRun, TestError>)
    ensures calibration.None? <==> r.Failure?
    ensures calibration.Some? && (!windowOpen || early.None?) ==> r == Success(RunTest(calibration.value, events))
    ensures calibration.Some? && windowOpen ==> r == Success(RunTestLeftOpen(calibration.value, early, events))
  {
    match calibration
    case None => Failure(CalibrationNotFound)
    case Some(cal) =>
      if windowOpen then
        LeftOpenWithoutPress(TestOrder, cal, map[], events);
        Success(RunTestLeftOpen(cal, early, events))
      else Success(RunTest(cal, events))
  }

  /** Enabling with the window flag cleared along with the rest of the pass
      state: a press during the first tone is ignored like any press outside
      a window, and every search starts from `Fresh`. */
  function OnEnableClosingWindow(calibration: Option<CalibrationMap>, early: Option<Press>,
                                 events: seq<Response>): (r: Result<SessionRun, TestError>)
    ensures calibration.None? <==> r.Failure?
    ensures calibration.Some? ==> r == Success(RunTest(calibration.value, events))
  {
    OnEnable(calibration, false, early, events)
  }

  /** Publishing the finished audiogram stores a copy in the static data;
      nothing else there changes. */
  function FinishTest(d: StaticData.AppData, results: AudiogramMap): (r: StaticData.AppData)
    ensures r.audiogramResults == Some(results)
    ensures r.patientHistory == d.patientHistory
    ensures r.averageHearingDataMales == d.averageHearingDataMales
    ensures r.averageHearingDataFemales == d.averageHearingDataFemales
  {
    d.(audiogramResults := Some(results))
  }

  /** A later publication replaces an earlier one entirely, and the next
      `Init` discards whatever was published. */
  lemma FinishTestOverwrites(d: StaticData.AppData, first: AudiogramMap, second: AudiogramMap)
    ensures FinishTest(FinishTest(d, first), second) == FinishTest(d, second)
    ensures StaticData.Init(FinishTest(d, first)) == StaticData.Init(d)
  {
  }
}

=== FILE: calibration.dfy ===
/** The calibration sequencer (Assets/Scripts/HearingTestManager.cs): for each
    test frequency in turn the listener moves a slider to the quietest level
    they can hear and confirms it, or reports that they hear nothing; the
    result is a map from frequency to dBFS level or +∞, which the threshold
    search consumes.

    The component's fields become the record `Calibration`. The static field
    that receives the map holds a REFERENCE to the component's own dictionary,
    so it is modelled by the flag `published`: once set, the published
    calibration is whatever the component's map holds now. */
module Calibration {
  import opened Wrappers
  import opened Audiogram
  import opened AudioWaves

  /** Slider bounds set when the component wakes up (dBFS). */
  const SliderMin: real := -80.0
  const SliderMax: real := 0.0

  /** Slider and gain position every frequency starts from (dBFS). */
  const StartLevel: real := -60.0

  datatype Calibration = Calibration(
    index: int,
    thresholds: CalibrationMap,
    slider: real,
    generator: ToneSettings,
    published: bool)

  /** Indexing the frequency list past its end throws in the original. */
  datatype CalibrationError = IndexOutOfRange(index: int)

  /** The outcome of a button press: the new state, and whether the press
      completed calibration. */
  datatype Pressed = Pressed(next: Calibration, finished: bool)

  /** What the static calibration field currently shows: nothing before the
      first publication, afterwards the component's live map. */
  function PublishedCalibration(c: Calibration): Option<CalibrationMap> {
    if c.published then Some(c.thresholds) else None
  }

  /** A freshly woken component: no thresholds, never published, generator in
      its initial settings and the slider at the start level. */
  function Awake(generator: ToneSettings): Calibration {
    Calibration(0, map[], StartLevel, generator, false)
  }

  /** Set the generator to frequency `index`, reset slider and gain to the
      start level, and play. */
  function LoadFrequency(c: Calibration, index: int): (r: Calibration)
    requires 0 <= index < |TestOrder|
    ensures r.generator.frequency == TestOrder[index] as real
    ensures r.slider == StartLevel && r.generator.gain == StartLevel
    ensures r.generator.playing
    ensures r.generator.pan == c.generator.pan
    ensures r.index == c.index && r.thresholds == c.thresholds && r.published == c.published
  {
    c.(slider := StartLevel,
       generator := c.generator.(frequency := TestOrder[index] as real, gain := StartLevel, playing := true))
  }

  /** Enabling the panel restarts calibration from the first frequency with an
      empty map. The map is cleared in place, so a calibration published
      earlier is emptied as well. */
  function OnEnable(c: Calibration): (r: Calibration)
    ensures r.index == 0 && r.thresholds == map[]
    ensures r.published == c.published
    ensures r.published ==> PublishedCalibration(r) == Some(map[])
    ensures r.generator.frequency == TestOrder[0] as real && r.generator.playing
  {
    LoadFrequency(c.(index := 0, thresholds := map[]), 0)
  }

  /** Moving the slider: the slider keeps the value within its bounds and
      the generator plays at that gain. */
  function OnSliderChanged(c: Calibration, value: real): (r: Calibration)
    ensures SliderMin <= r.slider <= SliderMax
    ensures SliderMin <= value <= SliderMax ==> r.slider == value
    ensures value < SliderMin ==> r.slider == SliderMin
    ensures value > SliderMax ==> r.slider == SliderMax
    ensures r.generator.gain == r.slider
    ensures r.index == c.index && r.thresholds == c.thresholds && r.published == c.published
  {
    var v := if value < SliderMin then SliderMin else if value > SliderMax then SliderMax else value;
    c.(slider := v, generator := c.generator.(gain := v))
  }

  /** Stop the tone and publish the component's map by reference. */
  function FinishCalibration(c: Calibration): (r: Calibration)
    ensures PublishedCalibration(r) == Some(c.thresholds)
    ensures !r.generator.playing
  {
    c.(generator := c.generator.(playing := false), published := true)
  }

  /** Shared tail of both buttons: record `level` for the current frequency,
      move to the next one, and finish after the last. There is no guard: a
      press after the last frequency indexes past the end of the list. */
  function Record(c: Calibration, level: Level): (r: Result<Pressed, CalibrationError>)
    ensures !(0 <= c.index < |TestOrder|) <==> r.Failure?
    ensures r.Success? ==>
      && r.value.next.index == c.index + 1
      && r.value.next.thresholds == c.thresholds[TestOrder[c.index] := level]
      && (r.value.finished <==> c.index + 1 == |TestOrder|)
      && (r.value.next.published <==> c.published || r.value.finished)
      && (r.value.finished ==> !r.value.next.generator.playing)
      && (!r.value.finished ==>
            && r.value.next.slider == StartLevel
            && r.value.next.generator.frequency == TestOrder[c.index + 1] as real
            && r.value.next.generator.gain == StartLevel
            && r.value.next.generator.playing
            && r.value.next.generator.pan == c.generator.pan)
  {
    if !(0 <= c.index < |TestOrder|) then Failure(IndexOutOfRange(c.index))
    else
      var freq := TestOrder[c.index];
      var recorded := c.(thresholds := c.thresholds[freq := level], index := c.index + 1);
      if recorded.index < |TestOrder| then Success(Pressed(LoadFrequency(recorded, recorded.index), false))
      else Success(Pressed(FinishCalibration(recorded), true))
  }

  /** Confirm: record the slider's current dBFS value. */
  function OnConfirmPressed(c: Calibration): (r: Result<Pressed, CalibrationError>)
    ensures 0 <= c.index < |TestOrder| ==>
      r.Success? && r.value.next.thresholds == c.thresholds[TestOrder[c.index] := Dbfs(c.slider)]
  {
    Record(c, Dbfs(c.slider))
  }

  /** No response: record +∞. */
  function OnNoResponsePressed(c: Calibration): (r: Result<Pressed, CalibrationError>)
    ensures 0 <= c.index < |TestOrder| ==>
      r.Success? && r.value.next.thresholds == c.thresholds[TestOrder[c.index] := PositiveInfinity]
  {
    Record(c, PositiveInfinity)
  }

  /** The user's actions on the calibration panel. */
  datatype Action = Slide(value: real) | Confirm | NoResponse

  /** Number of button presses (slider moves do not count). */
  function Presses(actions: seq<Action>): nat {
    if actions == [] then 0
    else (if actions[0].Slide? then 0 else 1) + Presses(actions[1..])
  }

  /** One user action. A slider move never completes calibration. */
  function Step(c: Calibration, a: Action): Result<Pressed, CalibrationError> {
    match a
    case Slide(v) => Success(Pressed(OnSliderChanged(c, v), false))
    case Confirm => OnConfirmPressed(c)
    case NoResponse => OnNoResponsePressed(c)
  }

  /** Apply actions one by one; a press that throws ends the run with its error. */
  function Run(c: Calibration, actions: seq<Action>): Result<Calibration, CalibrationError>
    decreases |actions|
  {
    if actions == [] then Success(c)
    else
      match Step(c, actions[0])
      case Failure(e) => Failure(e)
      case Success(p) => Run(p.next, actions[1..])
  }

  /** The frequencies visited before index `n`. */
  function Visited(n: int): set<int>
    requires 0 <= n <= |TestOrder|
  {
    set i | 0 <= i < n :: TestOrder[i]
  }

  /** The state every reachable calibration state satisfies: the index is
      within [0, 6], the map's keys are exactly the frequencies already
      visited, every recorded level is +∞ or a slider value, and the slider
      is within its bounds. */
  predicate Valid(c: Calibration) {
    && 0 <= c.index <= |TestOrder|
    && c.thresholds.Keys == Visited(c.index)
    && (forall f :: f in c.thresholds && c.thresholds[f].Dbfs? ==>
          SliderMin <= c.thresholds[f].value <= SliderMax)
    && SliderMin <= c.slider <= SliderMax
  }

  /** Enabling the panel yields a valid state. */
  lemma OnEnableValid(c: Calibration)
    ensures Valid(OnEnable(c))
  {
    assert Visited(0) == {};
  }

  /** A successful action keeps the state valid, and a press visits exactly
      one more frequency. */
  lemma StepValid(c: Calibration, a: Action)
    requires Valid(c)
    requires Step(c, a).Success?
    ensures Valid(Step(c, a).value.next)
    ensures Step(c, a).value.next.index == c.index + (if a.Slide? then 0 else 1)
  {
    if !a.Slide? {
      var r := Step(c, a).value.next;
      assert Visited(c.index + 1) == Visited(c.index) + {TestOrder[c.index]} by {
        forall f | f in Visited(c.index + 1)
          ensures f in Visited(c.index) + {TestOrder[c.index]}
        {
          var i :| 0 <= i < c.index + 1 && f == TestOrder[i];
          if i < c.index {
            assert f in Visited(c.index);
          }
        }
      }
    }
  }

  /** After `k` presses from a valid state at index `i` (with i + k at most
      6), the run succeeds, the index is i + k, the map's keys are exactly
      the first i + k frequencies, and the map has been published exactly
      when it was already or the last frequency was reached. */
  lemma {:induction false} RunWithinList(c: Calibration, actions: seq<Action>)
    requires Valid(c)
    requires c.index + Presses(actions) <= |TestOrder|
    ensures Run(c, actions).Success?
    ensures Valid(Run(c, actions).value)
    ensures Run(c, actions).value.index == c.index + Presses(actions)
    ensures Run(c, actions).value.thresholds.Keys == Visited(c.index + Presses(actions))
    ensures Run(c, actions).value.published <==>
      c.published || (Presses(actions) > 0 && c.index + Presses(actions) == |TestOrder|)
    decreases |actions|
  {
    if actions != [] {
      var a := actions[0];
      assert Step(c, a).Success?;
      StepValid(c, a);
      var p := Step(c, a).value;
      assert p.next.published <==> c.published || (!a.Slide? && c.index + 1 == |TestOrder|);
      RunWithinList(p.next, actions[1..]);
    }
  }

  /** A press beyond the last frequency throws: neither button guards
      against being used after calibration finished. */
  lemma {:induction false} RunPastEndFails(c: Calibration, actions: seq<Action>)
    requires Valid(c)
    requires c.index + Presses(actions) > |TestOrder|
    ensures Run(c, actions).Failure?
    decreases |actions|
  {
    var a := actions[0];
    if c.index == |TestOrder| && !a.Slide? {
      assert Step(c, a).Failure?;
    } else {
      StepValid(c, a);
      RunPastEndFails(Step(c, a).value.next, actions[1..]);
    }
  }

  /** A full calibration from the enabled panel publishes a map with an entry
      for every test frequency; re-enabling the panel afterwards empties that
      published map, because it is the same dictionary. */
  lemma RecalibrationEmptiesPublished(c: Calibration, actions: seq<Action>)
    requires Presses(actions) == |TestOrder|
    ensures Run(OnEnable(c), actions).Success?
    ensures var done := Run(OnEnable(c), actions).value;
      && PublishedCalibration(done).Some?
      && PublishedCalibration(done).value.Keys == set f | f in TestOrder
      && PublishedCalibration(OnEnable(done)) == Some(map[])
  {
    OnEnableValid(c);
    RunWithinList(OnEnable(c), actions);
    var done := Run(OnEnable(c), actions).value;
    assert Visited(|TestOrder|) == set f | f in TestOrder by {
      forall f | f in TestOrder ensures f in Visited(|TestOrder|) {
        var i :| 0 <= i < |TestOrder| && TestOrder[i] == f;
      }
    }
  }
}

=== FILE: patient_data.dfy ===
/** The questionnaire record the risk and recommendation rules read
    (Assets/Scripts/PatientData.cs). Every class of the original becomes an
    immutable datatype; the field initialisers become `DefaultHistory`. */
module PatientData {

  datatype NoiseExposureHistory = NoiseExposureHistory(
    occupational: bool,
    recreational: bool,
    military: bool,
    duration: string)

  datatype MedicalConditions = MedicalConditions(
    diabetes: bool,
    cardiovascular: bool,
    hypertension: bool,
    autoimmune: bool)

  datatype OtotoxicMedications = OtotoxicMedications(
    current: bool,
    past: bool,
    types: seq<string>)

  datatype EarHistory = EarHistory(
    infections: string,
    surgery: bool,
    trauma: bool,
    suddenHearingLoss: bool)

  datatype Symptoms = Symptoms(
    tinnitus: bool,
    tinnitusFrequency: string,
    dizziness: bool,
    earPain: bool,
    earFullness: bool)

  datatype PatientHistory = PatientHistory(
    name: string,
    age: int,
    gender: string,
    noiseExposure: NoiseExposureHistory,
    medicalConditions: MedicalConditions,
    ototoxicMedications: OtotoxicMedications,
    earHistory: EarHistory,
    symptoms: Symptoms,
    familyHistory: bool,
    hearingAidUse: bool)

  /** A freshly constructed `PatientHistory`: empty strings, age 0, every flag
      off and no medication types. */
  const DefaultHistory: PatientHistory :=
    PatientHistory(
      "", 0, "",
      NoiseExposureHistory(false, false, false, ""),
      MedicalConditions(false, false, false, false),
      OtotoxicMedications(false, false, []),
      EarHistory("", false, false, false),
      Symptoms(false, "", false, false, false),
      false, false)
}

=== FILE: questionnaire.dfy ===
/** The patient questionnaire (Assets/Scripts/QuestionnaireManager.cs): five
    steps navigated with Previous/Next, the ordered validation of the
    answers, the reset, and the Continue button that copies the answers into
    the shared patient history.

    Widgets become plain values: a text field is its `string`, a toggle its
    `bool`, a dropdown its selected index. The option text of a dropdown and
    the integer parse of the age field are passed in as functions, since
    neither is part of this model. */
module Questionnaire {
  import opened Wrappers
  import opened PatientData
  import opened StaticData

  // ----- the form -------------------------------------------------------------

  /** The answers as the widgets hold them. Dropdown index 0 is the
      placeholder "select…" entry. */
  datatype Form = Form(
    name: string,
    ageText: string,
    gender: nat,
    occupationalNoise: bool,
    recreationalNoise: bool,
    militaryNoise: bool,
    noiseDuration: nat,
    diabetes: bool,
    cardiovascular: bool,
    hypertension: bool,
    autoimmune: bool,
    currentMeds: bool,
    pastMeds: bool,
    infections: nat,
    earSurgery: bool,
    earTrauma: bool,
    suddenLoss: bool,
    tinnitus: bool,
    tinnitusFrequency: nat,
    dizziness: bool,
    earPain: bool,
    earFullness: bool,
    familyHistory: bool,
    hearingAidUse: bool)

  /** The cleared form: empty texts, every toggle off, every dropdown at 0. */
  const EmptyForm: Form := Form("", "", 0, false, false, false, 0, false, false, false, false, false, false,
                                0, false, false, false, false, 0, false, false, false, false, false)

  /** Whether any of the three noise toggles is on. */
  predicate AnyNoise(f: Form) {
    f.occupationalNoise || f.recreationalNoise || f.militaryNoise
  }

  // ----- validation -------------------------------------------------------------

  /** The five validation rules, declared in the order they are checked. */
  datatype FormError = NameEmpty | AgeEmpty | NoiseDurationMissing | InfectionsMissing | TinnitusFrequencyMissing
  {
    /** Position in the check order. */
    function Rank(): nat {
      match this
      case NameEmpty => 0
      case AgeEmpty => 1
      case NoiseDurationMissing => 2
      case InfectionsMissing => 3
      case TinnitusFrequencyMissing => 4
    }

    /** The status line shown for the rule. */
    function Message(): string {
      match this
      case NameEmpty => "Name cannot be Empty"
      case AgeEmpty => "Age cannot be Empty"
      case NoiseDurationMissing => "Select a Noise Duration or Disable Any Checkboxes Related to It"
      case InfectionsMissing => "Select infections History, if None Then Select No History Option"
      case TinnitusFrequencyMissing => "Select a Tinnitus Frequency or Disable the Tinnitus Checkbox"
    }
  }

  /** When each rule is violated. A noise duration is needed only when some
      noise toggle is on and a tinnitus frequency only when tinnitus is on;
      the infections dropdown must always be set. */
  predicate Fails(e: FormError, f: Form) {
    match e
    case NameEmpty => f.name == ""
    case AgeEmpty => f.ageText == ""
    case NoiseDurationMissing => AnyNoise(f) && f.noiseDuration == 0
    case InfectionsMissing => f.infections == 0
    case TinnitusFrequencyMissing => f.tinnitus && f.tinnitusFrequency == 0
  }

  /** The validation: `None` when no rule is violated, otherwise the first
      violated rule in check order, and only that one. */
  function CheckForAnyEmptyField(f: Form): (r: Option<FormError>)
    ensures r.Some? ==> Fails(r.value, f)
    ensures r.None? <==> forall e :: !Fails(e, f)
    ensures r.Some? ==> forall e :: Fails(e, f) ==> r.value.Rank() <= e.Rank()
  {
    if f.name == "" then
      assert Fails(NameEmpty, f);
      Some(NameEmpty)
    else if f.ageText == "" then
      assert Fails(AgeEmpty, f);
      Some(AgeEmpty)
    else if AnyNoise(f) && f.noiseDuration == 0 then
      assert Fails(NoiseDurationMissing, f);
      Some(NoiseDurationMissing)
    else if f.infections == 0 then
      assert Fails(InfectionsMissing, f);
      Some(InfectionsMissing)
    else if f.tinnitus && f.tinnitusFrequency == 0 then
      assert Fails(TinnitusFrequencyMissing, f);
      Some(TinnitusFrequencyMissing)
    else None
  }

  /** The reported rule is determined by the violated set alone: two forms
      that violate the same rules get the same report. */
  lemma ReportDependsOnlyOnViolations(f: Form, g: Form)
    requires forall e :: Fails(e, f) <==> Fails(e, g)
    ensures CheckForAnyEmptyField(f) == CheckForAnyEmptyField(g)
  {
    var r, s := CheckForAnyEmptyField(f), CheckForAnyEmptyField(g);
    if r.Some? && s.Some? {
      assert Fails(r.value, g) && Fails(s.value, f);
      assert r.value.Rank() == s.value.Rank();
    }
  }

  /** The cleared form never passes: its name is empty. */
  lemma EmptyFormRejected()
    ensures CheckForAnyEmptyField(EmptyForm) == Some(NameEmpty)
  {
  }

  // ----- saving the answers ------------------------------------------------------

  /** The four dropdowns whose option text is read. */
  datatype Menu = GenderMenu | NoiseDurationMenu | InfectionsMenu | TinnitusFrequencyMenu

  /** Copy the answers into a history. Every field is overwritten from the
      form except the list of medication types, which the questionnaire does
      not ask for and which is kept. `optionText` gives a dropdown's option text
      and `parseAge` the integer parse of the age field. */
  function SaveAnswers(h: PatientHistory, f: Form, optionText: (Menu, nat) -> string, parseAge: string -> int): (r: PatientHistory)
    ensures r.name == f.name && r.age == parseAge(f.ageText) && r.gender == optionText(GenderMenu, f.gender)
    ensures r.noiseExposure == NoiseExposureHistory(f.occupationalNoise, f.recreationalNoise, f.militaryNoise,
                                                    optionText(NoiseDurationMenu, f.noiseDuration))
    ensures r.medicalConditions == MedicalConditions(f.diabetes, f.cardiovascular, f.hypertension, f.autoimmune)
    ensures r.ototoxicMedications == OtotoxicMedications(f.currentMeds, f.pastMeds, h.ototoxicMedications.types)
    ensures r.earHistory == EarHistory(optionText(InfectionsMenu, f.infections), f.earSurgery, f.earTrauma, f.suddenLoss)
    ensures r.symptoms == Symptoms(f.tinnitus, optionText(TinnitusFrequencyMenu, f.tinnitusFrequency), f.dizziness,
                                   f.earPain, f.earFullness)
    ensures r.familyHistory == f.familyHistory && r.hearingAidUse == f.hearingAidUse
  {
    h.(name := f.name,
       age := parseAge(f.ageText),
       gender := optionText(GenderMenu, f.gender),
       noiseExposure := h.noiseExposure.(occupational := f.occupationalNoise, recreational := f.recreationalNoise,
                                         military := f.militaryNoise, duration := optionText(NoiseDurationMenu, f.noiseDuration)),
       medicalConditions := h.medicalConditions.(diabetes := f.diabetes, cardiovascular := f.cardiovascular,
                                                 hypertension := f.hypertension, autoimmune := f.autoimmune),
       ototoxicMedications := h.ototoxicMedications.(current := f.currentMeds, past := f.pastMeds),
       earHistory := h.earHistory.(infections := optionText(InfectionsMenu, f.infections), surgery := f.earSurgery,
                                   trauma := f.earTrauma, suddenHearingLoss := f.suddenLoss),
       symptoms := h.symptoms.(tinnitus := f.tinnitus, tinnitusFrequency := optionText(TinnitusFrequencyMenu, f.tinnitusFrequency),
                               dizziness := f.dizziness, earPain := f.earPain, earFullness := f.earFullness),
       familyHistory := f.familyHistory,
       hearingAidUse := f.hearingAidUse)
  }

  /** Saving twice is saving once, and the saved history depends on the old
      one only through its medication types. */
  lemma SaveAnswersOverwrites(h: PatientHistory, k: PatientHistory, f: Form, optionText: (Menu, nat) -> string, parseAge: string -> int)
    ensures SaveAnswers(SaveAnswers(h, f, optionText, parseAge), f, optionText, parseAge) == SaveAnswers(h, f, optionText, parseAge)
    ensures h.ototoxicMedications.types == k.ototoxicMedications.types ==>
      SaveAnswers(h, f, optionText, parseAge) == SaveAnswers(k, f, optionText, parseAge)
  {
  }

  // ----- step navigation -----------------------------------------------------------

  /** The number of step panels. */
  const StepCount: nat := 5

  /** The current step index and the active flag of each step panel. */
  datatype Steps = Steps(index: int, active: seq<bool>)

  /** Activating a panel that does not exist throws in the original. */
  datatype StepError = StepOutOfRange(index: int)

  /** Exactly the current step's panel is active. */
  predicate OneActive(s: Steps) {
    && |s.active| == StepCount
    && 0 <= s.index < StepCount
    && forall i :: 0 <= i < |s.active| ==> (s.active[i] <==> i == s.index)
  }

  /** Only the first panel is active. */
  const FirstStepOnly: seq<bool> := [true, false, false, false, false]

  /** Only the last panel is active. */
  const LastStepOnly: seq<bool> := [false, false, false, false, true]

  /** Set panel `i` active or inactive; an index outside the panels throws. */
  function SetActive(s: Steps, i: int, on: bool): (r: Result<Steps, StepError>)
    ensures r.Failure? <==> !(0 <= i < |s.active|)
    ensures r.Success? ==> r.value.index == s.index && |r.value.active| == |s.active|
    ensures r.Success? ==> r.value.active[i] == on
    ensures r.Success? ==> forall j :: 0 <= j < |s.active| && j != i ==> r.value.active[j] == s.active[j]
  {
    if 0 <= i < |s.active| then Success(s.(active := s.active[i := on])) else Failure(StepOutOfRange(i))
  }

  /** Hide the current panel, move the index by `delta`, show the new panel.
      It throws exactly when the old or the new index is not a panel; from a
      state with one active panel, a move to another panel keeps exactly one
      panel active, the new one. */
  function Move(s: Steps, delta: int): (r: Result<Steps, StepError>)
    ensures r.Failure? <==> !(0 <= s.index < |s.active|) || !(0 <= s.index + delta < |s.active|)
    ensures r.Success? ==> r.value.index == s.index + delta
    ensures OneActive(s) && 0 <= s.index + delta < StepCount ==> r.Success? && OneActive(r.value)
  {
    match SetActive(s, s.index, false)
    case Failure(e) => Failure(e)
    case Success(hidden) => SetActive(hidden.(index := s.index + delta), s.index + delta, true)
  }

  /** Waking up with the index at 0 shows the first panel only, at 4 the last
      panel only; any other index leaves the panels as they are. */
  function Awake(s: Steps): (r: Steps)
    requires |s.active| == StepCount
    ensures s.index == 0 ==> OneActive(r) && r.index == 0
    ensures s.index == StepCount - 1 ==> OneActive(r) && r.index == StepCount - 1
    ensures s.index != 0 && s.index != StepCount - 1 ==> r == s
  {
    if s.index == 0 then s.(active := FirstStepOnly)
    else if s.index == 4 then s.(active := LastStepOnly)
    else s
  }

  /** Previous: a no-op on the first step, otherwise one step back. */
  function Previous(s: Steps): (r: Result<Steps, StepError>)
    ensures OneActive(s) && s.index == 0 ==> r == Success(s)
    ensures OneActive(s) && s.index > 0 ==> r.Success? && r.value.index == s.index - 1 && OneActive(r.value)
  {
    if s.index > 0 then Move(s, -1) else Success(s)
  }

  /** Next as written: it moves on while the index is below 5, although the
      last panel has index 4, so Next on the last step hides it, moves the
      index to 5 and throws when showing the missing sixth panel. */
  function NextAsWritten(s: Steps): (r: Result<Steps, StepError>)
    ensures OneActive(s) && s.index < StepCount - 1 ==> r.Success? && r.value.index == s.index + 1 && OneActive(r.value)
  {
    if s.index < 5 then Move(s, 1) else Success(s)
  }

  /** Next with the guard stopping at the last panel: one step forward, a
      no-op on the last step. */
  function Next(s: Steps): (r: Result<Steps, StepError>)
    ensures OneActive(s) && s.index < StepCount - 1 ==> r.Success? && r.value.index == s.index + 1 && OneActive(r.value)
    ensures OneActive(s) && s.index == StepCount - 1 ==> r == Success(s)
  {
    if s.index < StepCount - 1 then Move(s, 1) else Success(s)
  }

  /** On the last step the written Next throws. */
  lemma NextAsWrittenFailsOnLastStep()
    ensures NextAsWritten(Steps(4, LastStepOnly)) == Failure(StepOutOfRange(5))
  {
  }

  /** What the written Next on the last step leaves behind in the original,
      where the writes before the throw persist: the last panel is already
      hidden and the index is 5. From there no panel is shown, Continue is
      hidden, Next does nothing and Previous throws when it hides the missing
      sixth panel, so the form is stuck. */
  lemma NextAsWrittenStrandsForm()
    ensures SetActive(Steps(4, LastStepOnly), 4, false) == Success(Steps(4, [false, false, false, false, false]))
    ensures var stuck := Steps(5, [false, false, false, false, false]);
      && !OneActive(stuck)
      && !FormControls(stuck).continueShown
      && NextAsWritten(stuck) == Success(stuck)
      && Previous(stuck) == Failure(StepOutOfRange(5))
  {
    assert LastStepOnly[4 := false] == [false, false, false, false, false];
  }

  /** The corrected Next never leaves the panels: from a state with one
      active panel it always succeeds and keeps exactly one panel active, so
      the index stays within the panels. */
  lemma NextKeepsOneActive(s: Steps)
    requires OneActive(s)
    ensures Next(s).Success? && OneActive(Next(s).value)
  {
  }

  /** Previous likewise keeps exactly one panel active. */
  lemma PreviousKeepsOneActive(s: Steps)
    requires OneActive(s)
    ensures Previous(s).Success? && OneActive(Previous(s).value)
  {
  }

  /** The button states the form keeps up to date every frame. */
  datatype Controls = Controls(previousEnabled: bool, nextEnabled: bool, continueShown: bool)

  /** With one panel active: Next is enabled exactly where the written Next
      would not throw and moves on, Previous is enabled exactly where it moves
      back, and Continue takes the place of Next. */
  function FormControls(s: Steps): (c: Controls)
    ensures OneActive(s) ==> (c.nextEnabled <==> NextAsWritten(s).Success?)
    ensures OneActive(s) ==> (c.nextEnabled <==> Next(s) != Success(s))
    ensures OneActive(s) ==> (c.previousEnabled <==> Previous(s) != Success(s))
    ensures c.continueShown <==> !c.nextEnabled
  {
    Controls(s.index != 0, s.index != 4, s.index == 4)
  }

  /** While the Next button is enabled the written and the corrected Next
      agree, so the disabled button on the last step hides the defect. */
  lemma EnabledNextAgrees(s: Steps)
    requires OneActive(s)
    requires FormControls(s).nextEnabled
    ensures NextAsWritten(s) == Next(s)
  {
  }

  // ----- the questionnaire screen --------------------------------------------------

  /** The screen: the answers, the status line and the step panels. */
  datatype Screen = Screen(form: Form, status: string, steps: Steps)

  /** Reset: back to the first step with only it shown, the status line
      cleared and the form cleared. */
  function ResetDefaults(q: Screen): (r: Screen)
    ensures OneActive(r.steps) && r.steps.index == 0
    ensures r.status == "" && r.form == EmptyForm
  {
    Screen(EmptyForm, "", Steps(0, FirstStepOnly))
  }

  /** Continue needs a patient history to write into. */
  datatype ContinueError = HistoryMissing

  /** The outcome of Continue: the screen, the application data, and whether
      the application moves on to calibration. */
  datatype Continued = Continued(screen: Screen, data: AppData, toCalibration: bool)

  /** Continue: on a validation failure only the status line changes (to the
      first failure's message) and the screen stays; otherwise the status is
      cleared, the answers are saved into the shared history and calibration
      starts. The history is dereferenced only after validation. */
  function Continue(q: Screen, d: AppData, optionText: (Menu, nat) -> string, parseAge: string -> int)
    : (r: Result<Continued, ContinueError>)
    ensures CheckForAnyEmptyField(q.form).Some? ==>
      && r.Success?
      && r.value.data == d
      && r.value.screen == q.(status := CheckForAnyEmptyField(q.form).value.Message())
      && !r.value.toCalibration
    ensures CheckForAnyEmptyField(q.form).None? && d.patientHistory.None? ==> r == Failure(HistoryMissing)
    ensures CheckForAnyEmptyField(q.form).None? && d.patientHistory.Some? ==>
      && r.Success?
      && r.value.toCalibration
      && r.value.screen == q.(status := "")
      && r.value.data == d.(patientHistory := Some(SaveAnswers(d.patientHistory.value, q.form, optionText, parseAge)))
  {
    match CheckForAnyEmptyField(q.form)
    case Some(e) => Success(Continued(q.(status := e.Message()), d, false))
    case None =>
      match d.patientHistory
      case None => Failure(HistoryMissing)
      case Some(h) => Success(Continued(q.(status := ""), d.(patientHistory := Some(SaveAnswers(h, q.form, optionText, parseAge))), true))
  }

  /** A rejected Continue leaves the patient history untouched, and one that
      saves changes nothing of the application data but the history. */
  lemma ContinueTouchesOnlyHistory(q: Screen, d: AppData, optionText: (Menu, nat) -> string, parseAge: string -> int)
    requires Continue(q, d, optionText, parseAge).Success?
    ensures var next := Continue(q, d, optionText, parseAge).value.data;
      && next.audiogramResults == d.audiogramResults
      && next.averageHearingDataMales == d.averageHearingDataMales
      && next.averageHearingDataFemales == d.averageHearingDataFemales
      && (!Continue(q, d, optionText, parseAge).value.toCalibration ==> next.patientHistory == d.patientHistory)
  {
  }

  /** After a reset, Continue is always rejected for the empty name, even on
      the last step. */
  lemma ContinueAfterResetRejected(q: Screen, d: AppData, optionText: (Menu, nat) -> string, parseAge: string -> int)
    ensures var r := Continue(ResetDefaults(q), d, optionText, parseAge);
      r.Success? && !r.value.toCalibration && r.value.screen.status == NameEmpty.Message()
  {
  }
}

=== FILE: results.dfy ===
/** Classification of a finished test (Assets/Scripts/ResultsManager.cs): the
    average threshold, the hearing-status band, the risk factors read from
    the questionnaire, and the recommendations.

    The float average is modelled as an exact `real`. Risk factors and
    recommendations are enumerations whose `Text` is the literal the original
    emits; the lists keep the original's order. */
module Results {
  import opened Wrappers
  import opened Audiogram
  import opened PatientData

  // ----- average threshold ----------------------------------------------------

  /** The audiogram entries that count: present and not the no-response
      sentinel, in chart order. */
  function Counted(results: AudiogramMap, freqs: seq<int>): (cs: seq<int>)
    ensures |cs| <= |freqs|
    ensures forall v :: v in cs ==> v != NoResponse
    ensures forall v :: v in cs <==> exists f :: f in freqs && f in results && results[f] == v && v != NoResponse
  {
    if freqs == [] then []
    else
      var rest := Counted(results, freqs[1..]);
      var f := freqs[0];
      if f in results && results[f] != NoResponse then [results[f]] + rest else rest
  }

  function Sum(vs: seq<int>): int {
    if vs == [] then 0 else vs[0] + Sum(vs[1..])
  }

  /** The mean of the counted entries, or 0 when none counts. A mean lies
      between the smallest and the largest counted entry. */
  function AverageThreshold(results: AudiogramMap): (avg: real)
    ensures Counted(results, ChartOrder) == [] ==> avg == 0.0
    ensures Counted(results, ChartOrder) != [] ==>
      && (exists v :: v in Counted(results, ChartOrder) && v as real <= avg)
      && (exists v :: v in Counted(results, ChartOrder) && avg <= v as real)
  {
    var cs := Counted(results, ChartOrder);
    if |cs| == 0 then 0.0
    else
      MeanBetweenExtremes(cs);
      Sum(cs) as real / |cs| as real
  }

  /** The smallest element of a non-empty list. */
  function Min(vs: seq<int>): (m: int)
    requires vs != []
    ensures m in vs && forall v :: v in vs ==> m <= v
  {
    if |vs| == 1 then vs[0]
    else
      var rest := Min(vs[1..]);
      assert forall v :: v in vs ==> v == vs[0] || v in vs[1..];
      if vs[0] <= rest then vs[0] else rest
  }

  /** The largest element of a non-empty list. */
  function Max(vs: seq<int>): (m: int)
    requires vs != []
    ensures m in vs && forall v :: v in vs ==> v <= m
  {
    if |vs| == 1 then vs[0]
    else
      var rest := Max(vs[1..]);
      assert forall v :: v in vs ==> v == vs[0] || v in vs[1..];
      if vs[0] >= rest then vs[0] else rest
  }

  /** The mean of a non-empty list lies between its smallest and its largest
      element. */
  lemma MeanBetweenExtremes(vs: seq<int>)
    requires vs != []
    ensures Min(vs) as real <= Sum(vs) as real / |vs| as real <= Max(vs) as real
  {
    SumBounds(vs, Min(vs), Max(vs));
    MeanBetween(Sum(vs), |vs|, Min(vs), Max(vs));
  }

  /** The loop of the original over a list of frequencies: the total and the
      number of the entries that count. */
  method Accumulate(results: AudiogramMap, freqs: seq<int>) returns (total: int, count: nat)
    ensures total == Sum(Counted(results, freqs))
    ensures count == |Counted(results, freqs)|
  {
    total := 0;
    count := 0;
    var i := 0;
    while i < |freqs|
      invariant 0 <= i <= |freqs|
      invariant total == Sum(Counted(results, freqs[..i]))
      invariant count == |Counted(results, freqs[..i])|
    {
      var freq := freqs[i];
      CountedAppend(results, freqs[..i], freq);
      assert freqs[..i + 1] == freqs[..i] + [freq];
      if freq in results && results[freq] != NoResponse {
        SumAppend(Counted(results, freqs[..i]), results[freq]);
        total := total + results[freq];
        count := count + 1;
      } else {
        assert Counted(results, freqs[..i + 1]) == Counted(results, freqs[..i]);
      }
      i := i + 1;
    }
    assert freqs[..i] == freqs;
  }

  /** The average over the chart frequencies, 0 when nothing counted. */
  method CalculateAverageThreshold(results: AudiogramMap) returns (avg: real)
    ensures avg == AverageThreshold(results)
  {
    var total, count := Accumulate(results, ChartOrder);
    avg := if count == 0 then 0.0 else total as real / count as real;
  }

  /** Extending the frequency list by one extends the counted entries by that
      frequency's entry when it counts. */
  lemma {:induction false} CountedAppend(results: AudiogramMap, fs: seq<int>, f: int)
    ensures Counted(results, fs + [f])
         == Counted(results, fs) + (if f in results && results[f] != NoResponse then [results[f]] else [])
    decreases |fs|
  {
    if fs == [] {
      assert [f][1..] == [];
    } else {
      assert (fs + [f])[0] == fs[0];
      assert (fs + [f])[1..] == fs[1..] + [f];
      CountedAppend(results, fs[1..], f);
    }
  }

  /** The listed frequencies whose entry is `v`. */
  ghost function Holders(results: AudiogramMap, fs: seq<int>, v: int): set<int> {
    set f | f in fs && f in results && results[f] == v
  }

  /** Over distinct frequencies, each value appears among the counted entries
      once per frequency that holds it: the list is the multiset of the
      present, non-sentinel entries. */
  lemma {:induction false} CountedMultiplicity(results: AudiogramMap, freqs: seq<int>, v: int)
    requires Distinct(freqs)
    requires v != NoResponse
    ensures multiset(Counted(results, freqs))[v] == |Holders(results, freqs, v)|
    decreases |freqs|
  {
    if freqs != [] {
      var f, rest := freqs[0], freqs[1..];
      assert Distinct(rest);
      CountedMultiplicity(results, rest, v);
      HoldersStep(results, freqs, v);
      if f in results && results[f] == v {
        assert f !in Holders(results, rest, v) by {
          assert f !in rest by { DistinctHeadNotInTail(freqs); }
        }
        assert |Holders(results, rest, v) + {f}| == |Holders(results, rest, v)| + 1;
      }
    }
  }

  /** Helper of CountedMultiplicity: the holders among a list are those of its
      tail plus, possibly, its head. */
  lemma HoldersStep(results: AudiogramMap, fs: seq<int>, v: int)
    requires fs != []
    ensures Holders(results, fs, v)
         == Holders(results, fs[1..], v) + (if fs[0] in results && results[fs[0]] == v then {fs[0]} else {})
  {
    assert forall g :: g in fs <==> g == fs[0] || g in fs[1..];
  }

  /** Helper of CountedMultiplicity: the head of a duplicate-free list does
      not occur in its tail. */
  lemma DistinctHeadNotInTail(fs: seq<int>)
    requires fs != [] && Distinct(fs)
    ensures fs[0] !in fs[1..]
  {
    forall i | 0 <= i < |fs[1..]| ensures fs[1..][i] != fs[0] {
      assert fs[1..][i] == fs[i + 1];
    }
  }

  lemma {:induction false} SumAppend(vs: seq<int>, v: int)
    ensures Sum(vs + [v]) == Sum(vs) + v
    decreases |vs|
  {
    if vs != [] {
      assert (vs + [v])[0] == vs[0];
      assert (vs + [v])[1..] == vs[1..] + [v];
      SumAppend(vs[1..], v);
    }
  }

  /** A sum of n values between lo and hi lies between n·lo and n·hi. */
  lemma {:induction false} SumBounds(vs: seq<int>, lo: int, hi: int)
    requires forall v :: v in vs ==> lo <= v <= hi
    ensures |vs| * lo <= Sum(vs) <= |vs| * hi
    decreases |vs|
  {
    if vs != [] {
      var rest := vs[1..];
      assert forall v :: v in rest ==> v in vs;
      SumBounds(rest, lo, hi);
      assert vs[0] in vs;
      MulSucc(|rest|, lo);
      MulSucc(|rest|, hi);
    }
  }

  /** Helper of SumBounds: (n + 1)·x is n·x plus x. */
  lemma MulSucc(n: nat, x: int)
    ensures (n + 1) * x == n * x + x
  {
  }

  /** When at least one entry counts, the average lies between the smallest
      and the largest counted threshold; when none counts it is 0. */
  lemma AverageWithinCounted(results: AudiogramMap, lo: int, hi: int)
    requires forall f :: f in ChartOrder && f in results && results[f] != NoResponse ==> lo <= results[f] <= hi
    ensures Counted(results, ChartOrder) == [] ==> AverageThreshold(results) == 0.0
    ensures Counted(results, ChartOrder) != [] ==> lo as real <= AverageThreshold(results) <= hi as real
  {
    var cs := Counted(results, ChartOrder);
    if cs != [] {
      SumBounds(cs, lo, hi);
      MeanBetween(Sum(cs), |cs|, lo, hi);
    }
  }

  /** Helper of AverageWithinCounted: a total between n·lo and n·hi, divided
      by n, lies between lo and hi. */
  lemma MeanBetween(total: int, n: nat, lo: int, hi: int)
    requires n > 0
    requires n * lo <= total <= n * hi
    ensures lo as real <= total as real / n as real <= hi as real
  {
    assert (n * lo) as real == n as real * lo as real;
    assert (n * hi) as real == n as real * hi as real;
  }

  /** Nothing counts when every present entry is the sentinel. */
  lemma {:induction false} NothingCounted(results: AudiogramMap, fs: seq<int>)
    requires forall f :: f in results ==> results[f] == NoResponse
    ensures Counted(results, fs) == []
    decreases |fs|
  {
    if fs != [] {
      NothingCounted(results, fs[1..]);
    }
  }

  /** An audiogram whose entries are all the sentinel averages to 0, the
      normal band. */
  lemma AllNoResponseAveragesZero(results: AudiogramMap)
    requires forall f :: f in results ==> results[f] == NoResponse
    ensures AverageThreshold(results) == 0.0
    ensures GetHearingStatus(AverageThreshold(results)) == Normal
  {
    NothingCounted(results, ChartOrder);
  }

  // ----- hearing status -------------------------------------------------------

  datatype HearingStatus = Normal | MildLoss | ModerateLoss | SignificantLoss {
    /** The label shown to the user. */
    function Text(): string {
      match this
      case Normal => "NORMAL"
      case MildLoss => "MILD LOSS"
      case ModerateLoss => "MODERATE LOSS"
      case SignificantLoss => "SIGNIFICANT LOSS"
    }

    /** Severity rank, 0 for normal up to 3 for significant loss. */
    function Rank(): nat {
      match this
      case Normal => 0
      case MildLoss => 1
      case ModerateLoss => 2
      case SignificantLoss => 3
    }
  }

  /** Bands: below 25 normal, below 40 mild, below 60 moderate, else
      significant. The severity rank counts the cut-offs 25, 40 and 60 the
      average reaches. */
  function GetHearingStatus(avg: real): (st: HearingStatus)
    ensures st.Rank() == (if avg >= 25.0 then 1 else 0) + (if avg >= 40.0 then 1 else 0) + (if avg >= 60.0 then 1 else 0)
  {
    if avg < 25.0 then Normal
    else if avg < 40.0 then MildLoss
    else if avg < 60.0 then ModerateLoss
    else SignificantLoss
  }

  /** A higher average never yields a milder status. */
  lemma StatusMonotone(a: real, b: real)
    requires a <= b
    ensures GetHearingStatus(a).Rank() <= GetHearingStatus(b).Rank()
  {
  }

  /** Each band is exactly its interval of averages. */
  lemma StatusBands(avg: real)
    ensures GetHearingStatus(avg) == Normal <==> avg < 25.0
    ensures GetHearingStatus(avg) == MildLoss <==> 25.0 <= avg < 40.0
    ensures GetHearingStatus(avg) == ModerateLoss <==> 40.0 <= avg < 60.0
    ensures GetHearingStatus(avg) == SignificantLoss <==> 60.0 <= avg
  {
  }

  // ----- risk factors -----------------------------------------------------------

  datatype Severity = High | Moderate | Low {
    function Text(): string {
      match this
      case High => "high"
      case Moderate => "moderate"
      case Low => "low"
    }
  }

  /** The ten risk factors, declared in the order they are checked. */
  datatype Risk =
    | AgeRelated | NoiseInduced | Diabetes | Cardiovascular | OtotoxicMedication
    | SuddenHearingLoss | ChronicInfections | PersistentTinnitus | BalanceProblems | FamilyHistory
  {
    /** Position in the check order. */
    function Rank(): nat {
      match this
      case AgeRelated => 0
      case NoiseInduced => 1
      case Diabetes => 2
      case Cardiovascular => 3
      case OtotoxicMedication => 4
      case SuddenHearingLoss => 5
      case ChronicInfections => 6
      case PersistentTinnitus => 7
      case BalanceProblems => 8
      case FamilyHistory => 9
    }

    function Severity(): Severity {
      match this
      case NoiseInduced | OtotoxicMedication | SuddenHearingLoss => High
      case FamilyHistory => Low
      case _ => Moderate
    }

    function Factor(): string {
      match this
      case AgeRelated => "Age-related hearing loss (Presbycusis)"
      case NoiseInduced => "Noise-induced hearing loss"
      case Diabetes => "Diabetes"
      case Cardiovascular => "Cardiovascular disease"
      case OtotoxicMedication => "Current ototoxic medications"
      case SuddenHearingLoss => "Previous sudden hearing loss"
      case ChronicInfections => "Chronic ear infections"
      case PersistentTinnitus => "Persistent tinnitus"
      case BalanceProblems => "Balance problems"
      case FamilyHistory => "Family history"
    }

    function Description(): string {
      match this
      case AgeRelated => "Natural hearing decline typically begins around age 60"
      case NoiseInduced => "Prolonged exposure to loud noise is a major risk factor"
      case Diabetes => "Diabetes can damage blood vessels in the inner ear"
      case Cardiovascular => "Reduced blood flow can affect hearing"
      case OtotoxicMedication => "Some medications can cause temporary or permanent hearing damage"
      case SuddenHearingLoss => "Requires immediate medical attention and monitoring"
      case ChronicInfections => "Can cause conductive hearing loss"
      case PersistentTinnitus => "Often associated with hearing loss"
      case BalanceProblems => "May indicate inner ear dysfunction"
      case FamilyHistory => "Genetic predisposition to hearing loss"
    }
  }

  /** All risk factors in check order. */
  const RiskOrder: seq<Risk> := [AgeRelated, NoiseInduced, Diabetes, Cardiovascular, OtotoxicMedication,
                                 SuddenHearingLoss, ChronicInfections, PersistentTinnitus, BalanceProblems,
                                 FamilyHistory]

  /** The check order lists every risk factor once, by rank. */
  lemma RiskOrderComplete()
    ensures InCheckOrder(RiskOrder)
    ensures forall k: Risk :: k in RiskOrder
  {
    forall k: Risk ensures k in RiskOrder {
      assert RiskOrder[k.Rank()] == k;
    }
  }

  /** Noise exposure that counts as a risk: occupational or military at any
      duration, recreational only for "5-10" or "10+" years. */
  predicate NoiseRisk(h: PatientHistory) {
    || h.noiseExposure.occupational
    || h.noiseExposure.military
    || (h.noiseExposure.recreational && (h.noiseExposure.duration == "5-10" || h.noiseExposure.duration == "10+"))
  }

  /** The condition under which each risk factor is reported. */
  predicate Applies(k: Risk, h: PatientHistory) {
    match k
    case AgeRelated => h.age >= 60
    case NoiseInduced => NoiseRisk(h)
    case Diabetes => h.medicalConditions.diabetes
    case Cardiovascular => h.medicalConditions.cardiovascular || h.medicalConditions.hypertension
    case OtotoxicMedication => h.ototoxicMedications.current
    case SuddenHearingLoss => h.earHistory.suddenHearingLoss
    case ChronicInfections => h.earHistory.infections == "chronic"
    case PersistentTinnitus =>
      h.symptoms.tinnitus && (h.symptoms.tinnitusFrequency == "frequently" || h.symptoms.tinnitusFrequency == "constant")
    case BalanceProblems => h.symptoms.dizziness
    case FamilyHistory => h.familyHistory
  }

  /** Strictly increasing in check order. */
  predicate InCheckOrder(rs: seq<Risk>) {
    forall i, j :: 0 <= i < j < |rs| ==> rs[i].Rank() < rs[j].Rank()
  }

  /** The checks over `ks`, in order, keeping the factors that apply. */
  function SelectRisks(ks: seq<Risk>, h: PatientHistory): (rs: seq<Risk>)
    requires InCheckOrder(ks)
    ensures forall k :: k in rs <==> k in ks && Applies(k, h)
    ensures InCheckOrder(rs)
    ensures |ks| > 0 ==> forall k :: k in rs ==> ks[0].Rank() <= k.Rank()
  {
    if ks == [] then []
    else
      var rest := SelectRisks(ks[1..], h);
      assert forall k :: k in ks[1..] ==> ks[0].Rank() < k.Rank();
      if Applies(ks[0], h) then [ks[0]] + rest else rest
  }

  /** The risk factors of a history: each reported exactly when its condition
      holds, in check order, hence each at most once and at most ten. */
  function GetRiskFactors(h: PatientHistory): (rs: seq<Risk>)
    ensures forall k :: k in rs <==> Applies(k, h)
    ensures InCheckOrder(rs)
    ensures forall i, j :: 0 <= i < j < |rs| ==> rs[i] != rs[j]
    ensures |rs| <= |RiskOrder|
  {
    RiskOrderComplete();
    var rs := SelectRisks(RiskOrder, h);
    InCheckOrderBounded(rs, 10);
    rs
  }

  /** A strictly increasing sequence of ranks below `bound` has at most
      `bound` elements. */
  lemma {:induction false} InCheckOrderBounded(rs: seq<Risk>, bound: nat)
    requires InCheckOrder(rs)
    requires forall k :: k in rs ==> k.Rank() < bound
    ensures |rs| <= bound
    decreases bound
  {
    if |rs| > 0 {
      var last := rs[|rs| - 1];
      var init := rs[..|rs| - 1];
      assert forall k :: k in init ==> k.Rank() < last.Rank() by {
        forall k | k in init ensures k.Rank() < last.Rank() {
          var i :| 0 <= i < |init| && init[i] == k;
          assert rs[i] == k;
        }
      }
      assert InCheckOrder(init);
      InCheckOrderBounded(init, last.Rank());
    }
  }

  /** Whether any reported factor has high severity. */
  predicate HasHighRisk(rs: seq<Risk>) {
    exists k :: k in rs && k.Severity() == High
  }

  /** High severity arises only from noise exposure, current ototoxic
      medication or a previous sudden hearing loss. */
  lemma HighRiskSources(h: PatientHistory)
    ensures HasHighRisk(GetRiskFactors(h)) <==>
      NoiseRisk(h) || h.ototoxicMedications.current || h.earHistory.suddenHearingLoss
  {
    var rs := GetRiskFactors(h);
    if NoiseRisk(h) {
      assert NoiseInduced in rs;
    } else if h.ototoxicMedications.current {
      assert OtotoxicMedication in rs;
    } else if h.earHistory.suddenHearingLoss {
      assert SuddenHearingLoss in rs;
    }
  }

  // ----- recommendations -------------------------------------------------------

  datatype Recommendation =
    | ConsultSpecialist | HearingAidEvaluation | FollowUpTest | ConsultAudiologist
    | HearingProtection | ManageConditions | MedicationMonitoring | SuddenChangeAttention
    | ConsultEnt | ContinueProtecting | RetestEveryFewYears
  {
    function Text(): string {
      match this
      case ConsultSpecialist => "Consult an audiologist or ENT specialist for comprehensive evaluation"
      case HearingAidEvaluation => "Consider hearing aid evaluation"
      case FollowUpTest => "Schedule follow-up hearing test in 6-12 months"
      case ConsultAudiologist => "Consult with an audiologist for professional assessment"
      case HearingProtection => "Use hearing protection (earplugs/earmuffs) in loud environments"
      case ManageConditions => "Manage underlying health conditions to protect hearing"
      case MedicationMonitoring => "Discuss hearing monitoring plan with prescribing physician"
      case SuddenChangeAttention => "Seek immediate medical attention for any new sudden hearing changes"
      case ConsultEnt => "Consult ENT specialist to rule out infection or blockage"
      case ContinueProtecting => "Continue protecting your hearing from loud noise exposure"
      case RetestEveryFewYears => "Have your hearing tested every 3-5 years"
    }

    /** Position in the order the recommendations are emitted. */
    function Rank(): nat {
      match this
      case ConsultSpecialist => 0
      case HearingAidEvaluation => 1
      case FollowUpTest => 2
      case ConsultAudiologist => 3
      case HearingProtection => 4
      case ManageConditions => 5
      case MedicationMonitoring => 6
      case SuddenChangeAttention => 7
      case ConsultEnt => 8
      case ContinueProtecting => 9
      case RetestEveryFewYears => 10
    }
  }

  /** When each recommendation is given. Hypertension raises the
      cardiovascular risk but does not prompt the conditions advice, and
      military noise raises the noise risk but does not prompt protection. */
  predicate Advised(r: Recommendation, avg: real, risks: seq<Risk>, h: PatientHistory) {
    match r
    case ConsultSpecialist | HearingAidEvaluation => avg >= 40.0
    case FollowUpTest | ConsultAudiologist => 25.0 <= avg < 40.0
    case HearingProtection => h.noiseExposure.occupational || h.noiseExposure.recreational
    case ManageConditions => h.medicalConditions.diabetes || h.medicalConditions.cardiovascular
    case MedicationMonitoring => h.ototoxicMedications.current
    case SuddenChangeAttention => h.earHistory.suddenHearingLoss
    case ConsultEnt => h.symptoms.earPain || h.symptoms.earFullness
    case ContinueProtecting | RetestEveryFewYears => avg < 25.0 && !HasHighRisk(risks)
  }

  /** Strictly increasing in emission order, hence free of duplicates. */
  predicate InAdviceOrder(recs: seq<Recommendation>) {
    forall i, j :: 0 <= i < j < |recs| ==> recs[i].Rank() < recs[j].Rank()
  }

  /** All recommendations in emission order. */
  const AdviceOrder: seq<Recommendation> := [ConsultSpecialist, HearingAidEvaluation, FollowUpTest,
                                             ConsultAudiologist, HearingProtection, ManageConditions,
                                             MedicationMonitoring, SuddenChangeAttention, ConsultEnt,
                                             ContinueProtecting, RetestEveryFewYears]

  /** The emission order lists every recommendation once, by rank. */
  lemma AdviceOrderComplete()
    ensures InAdviceOrder(AdviceOrder)
    ensures forall r: Recommendation :: r in AdviceOrder
  {
    forall r: Recommendation ensures r in AdviceOrder {
      assert AdviceOrder[r.Rank()] == r;
    }
  }

  /** Reference definition: walk a list of recommendations and keep those
      whose condition holds. */
  function SelectAdvice(rs: seq<Recommendation>, avg: real, risks: seq<Risk>, h: PatientHistory): seq<Recommendation> {
    if rs == [] then []
    else When(Advised(rs[0], avg, risks, h), rs[0]) + SelectAdvice(rs[1..], avg, risks, h)
  }

  /** The one-element list `[r]` when `c` holds, else the empty list. */
  function When(c: bool, r: Recommendation): seq<Recommendation> {
    if c then [r] else []
  }

  /** The walk keeps exactly the listed recommendations whose condition holds. */
  lemma {:induction false} SelectAdviceMembers(rs: seq<Recommendation>, avg: real, risks: seq<Risk>, h: PatientHistory)
    ensures forall r :: r in SelectAdvice(rs, avg, risks, h) <==> r in rs && Advised(r, avg, risks, h)
    decreases |rs|
  {
    if rs != [] {
      SelectAdviceMembers(rs[1..], avg, risks, h);
      assert forall r :: r in rs <==> r == rs[0] || r in rs[1..];
    }
  }

  /** The walk keeps the order of an ordered list. */
  lemma {:induction false} SelectAdviceOrdered(rs: seq<Recommendation>, avg: real, risks: seq<Risk>, h: PatientHistory)
    requires InAdviceOrder(rs)
    ensures InAdviceOrder(SelectAdvice(rs, avg, risks, h))
    decreases |rs|
  {
    if rs != [] {
      var rest := SelectAdvice(rs[1..], avg, risks, h);
      SelectAdviceOrdered(rs[1..], avg, risks, h);
      SelectAdviceMembers(rs[1..], avg, risks, h);
      forall r | r in rest ensures rs[0].Rank() < r.Rank() {
        var i :| 0 <= i < |rs[1..]| && rs[1..][i] == r;
        assert rs[i + 1] == r;
      }
      var head := if Advised(rs[0], avg, risks, h) then [rs[0]] else [];
      forall i, j | 0 <= i < j < |head + rest| ensures (head + rest)[i].Rank() < (head + rest)[j].Rank() {
        if |head| == 1 && i == 0 {
          assert (head + rest)[j] in rest;
        } else {
          assert (head + rest)[i] == rest[i - |head|] && (head + rest)[j] == rest[j - |head|];
        }
      }
    }
  }

  /** The referral pair chosen by the average's band. */
  function BandAdvice(avg: real): seq<Recommendation> {
    if avg >= 40.0 then [ConsultSpecialist, HearingAidEvaluation]
    else if avg >= 25.0 then [FollowUpTest, ConsultAudiologist]
    else []
  }

  /** The advice prompted by the questionnaire answers. */
  function HistoryAdvice(h: PatientHistory): seq<Recommendation> {
    When(h.noiseExposure.occupational || h.noiseExposure.recreational, HearingProtection)
    + When(h.medicalConditions.diabetes || h.medicalConditions.cardiovascular, ManageConditions)
    + When(h.ototoxicMedications.current, MedicationMonitoring)
    + When(h.earHistory.suddenHearingLoss, SuddenChangeAttention)
    + When(h.symptoms.earPain || h.symptoms.earFullness, ConsultEnt)
  }

  /** The closing pair for a normal average without a high risk. */
  function KeepUpAdvice(avg: real, risks: seq<Risk>): seq<Recommendation> {
    if avg < 25.0 && !HasHighRisk(risks) then [ContinueProtecting, RetestEveryFewYears] else []
  }

  /** The recommendations for an average and the reported risks, built block
      by block as the original does. They are what the reference walk over
      the emission order keeps: each recommendation is given exactly when its
      condition holds, in emission order, so none is repeated. */
  function GetRecommendations(avg: real, risks: seq<Risk>, h: PatientHistory): (recs: seq<Recommendation>)
    ensures recs == SelectAdvice(AdviceOrder, avg, risks, h)
    ensures forall r :: r in recs <==> Advised(r, avg, risks, h)
    ensures InAdviceOrder(recs)
  {
    RecommendationsFollowAdviceOrder(avg, risks, h);
    AdviceOrderComplete();
    SelectAdviceMembers(AdviceOrder, avg, risks, h);
    SelectAdviceOrdered(AdviceOrder, avg, risks, h);
    BandAdvice(avg) + HistoryAdvice(h) + KeepUpAdvice(avg, risks)
  }

  /** One step of the reference walk over the emission order, at the
      position holding `r`. */
  lemma SelectStep(k: nat, r: Recommendation, avg: real, risks: seq<Risk>, h: PatientHistory)
    requires k < |AdviceOrder| && AdviceOrder[k] == r
    ensures SelectAdvice(AdviceOrder[k..], avg, risks, h)
         == When(Advised(r, avg, risks, h), r) + SelectAdvice(AdviceOrder[k + 1..], avg, risks, h)
  {
    assert AdviceOrder[k..][0] == r;
    assert AdviceOrder[k..][1..] == AdviceOrder[k + 1..];
  }

  /** The block-by-block construction agrees with the reference walk. */
  lemma RecommendationsFollowAdviceOrder(avg: real, risks: seq<Risk>, h: PatientHistory)
    ensures BandAdvice(avg) + HistoryAdvice(h) + KeepUpAdvice(avg, risks) == SelectAdvice(AdviceOrder, avg, risks, h)
  {
    var band, history, keepUp := BandAdvice(avg), HistoryAdvice(h), KeepUpAdvice(avg, risks);
    var s4 := SelectAdvice(AdviceOrder[4..], avg, risks, h);
    assert SelectAdvice(AdviceOrder, avg, risks, h) == band + s4 by {
      WalkBand(avg, risks, h);
      assert AdviceOrder[0..] == AdviceOrder;
    }
    assert s4 == history + keepUp by {
      WalkHistory(avg, risks, h);
      WalkKeepUp(avg, risks, h);
    }
    AppendAssoc(band, history, keepUp);
  }

  lemma WalkKeepUp(avg: real, risks: seq<Risk>, h: PatientHistory)
    ensures SelectAdvice(AdviceOrder[9..], avg, risks, h) == KeepUpAdvice(avg, risks)
  {
    var keep := avg < 25.0 && !HasHighRisk(risks);
    var s9, s10 := SelectAdvice(AdviceOrder[9..], avg, risks, h), SelectAdvice(AdviceOrder[10..], avg, risks, h);
    assert s10 == When(keep, RetestEveryFewYears) by {
      SelectStep(10, RetestEveryFewYears, avg, risks, h);
      assert AdviceOrder[11..] == [];
    }
    assert s9 == When(keep, ContinueProtecting) + s10 by { SelectStep(9, ContinueProtecting, avg, risks, h); }
  }

  lemma WalkHistory(avg: real, risks: seq<Risk>, h: PatientHistory)
    ensures SelectAdvice(AdviceOrder[4..], avg, risks, h) == HistoryAdvice(h) + SelectAdvice(AdviceOrder[9..], avg, risks, h)
  {
    var a := When(h.noiseExposure.occupational || h.noiseExposure.recreational, HearingProtection);
    var b := When(h.medicalConditions.diabetes || h.medicalConditions.cardiovascular, ManageConditions);
    var c := When(h.ototoxicMedications.current, MedicationMonitoring);
    var d := When(h.earHistory.suddenHearingLoss, SuddenChangeAttention);
    var e := When(h.symptoms.earPain || h.symptoms.earFullness, ConsultEnt);
    var r := SelectAdvice(AdviceOrder[9..], avg, risks, h);
    WalkHistorySteps(avg, risks, h);
    Reassociate(a, b, c, d, e, r);
  }

  lemma WalkHistorySteps(avg: real, risks: seq<Risk>, h: PatientHistory)
    ensures SelectAdvice(AdviceOrder[4..], avg, risks, h)
         == When(h.noiseExposure.occupational || h.noiseExposure.recreational, HearingProtection)
            + (When(h.medicalConditions.diabetes || h.medicalConditions.cardiovascular, ManageConditions)
            + (When(h.ototoxicMedications.current, MedicationMonitoring)
            + (When(h.earHistory.suddenHearingLoss, SuddenChangeAttention)
            + (When(h.symptoms.earPain || h.symptoms.earFullness, ConsultEnt)
            + SelectAdvice(AdviceOrder[9..], avg, risks, h)))))
  {
    var s4, s5, s6 := SelectAdvice(AdviceOrder[4..], avg, risks, h), SelectAdvice(AdviceOrder[5..], avg, risks, h), SelectAdvice(AdviceOrder[6..], avg, risks, h);
    var s7, s8, s9 := SelectAdvice(AdviceOrder[7..], avg, risks, h), SelectAdvice(AdviceOrder[8..], avg, risks, h), SelectAdvice(AdviceOrder[9..], avg, risks, h);
    assert s8 == When(h.symptoms.earPain || h.symptoms.earFullness, ConsultEnt) + s9 by { SelectStep(8, ConsultEnt, avg, risks, h); }
    assert s7 == When(h.earHistory.suddenHearingLoss, SuddenChangeAttention) + s8 by { SelectStep(7, SuddenChangeAttention, avg, risks, h); }
    assert s6 == When(h.ototoxicMedications.current, MedicationMonitoring) + s7 by { SelectStep(6, MedicationMonitoring, avg, risks, h); }
    assert s5 == When(h.medicalConditions.diabetes || h.medicalConditions.cardiovascular, ManageConditions) + s6
    by { SelectStep(5, ManageConditions, avg, risks, h); }
    assert s4 == When(h.noiseExposure.occupational || h.noiseExposure.recreational, HearingProtection) + s5
    by { SelectStep(4, HearingProtection, avg, risks, h); }
  }

  /** Concatenation regrouped from the left to the right. */
  lemma Reassociate(a: seq<Recommendation>, b: seq<Recommendation>, c: seq<Recommendation>,
                    d: seq<Recommendation>, e: seq<Recommendation>, r: seq<Recommendation>)
    ensures a + b + c + d + e + r == a + (b + (c + (d + (e + r))))
  {
    calc {
      a + b + c + d + e + r;
      { AppendAssoc(a + b + c + d, e, r); }
      (a + b + c + d) + (e + r);
      { AppendAssoc(a + b + c, d, e + r); }
      (a + b + c) + (d + (e + r));
      { AppendAssoc(a + b, c, d + (e + r)); }
      (a + b) + (c + (d + (e + r)));
      { AppendAssoc(a, b, c + (d + (e + r))); }
      a + (b + (c + (d + (e + r))));
    }
  }

  lemma AppendAssoc(x: seq<Recommendation>, y: seq<Recommendation>, z: seq<Recommendation>)
    ensures (x + y) + z == x + (y + z)
  {
  }

  lemma WalkBand(avg: real, risks: seq<Risk>, h: PatientHistory)
    ensures SelectAdvice(AdviceOrder[0..], avg, risks, h) == BandAdvice(avg) + SelectAdvice(AdviceOrder[4..], avg, risks, h)
  {
    var high, mild := avg >= 40.0, 25.0 <= avg < 40.0;
    var s0, s1 := SelectAdvice(AdviceOrder[0..], avg, risks, h), SelectAdvice(AdviceOrder[1..], avg, risks, h);
    var s2, s3 := SelectAdvice(AdviceOrder[2..], avg, risks, h), SelectAdvice(AdviceOrder[3..], avg, risks, h);
    var s4 := SelectAdvice(AdviceOrder[4..], avg, risks, h);
    assert s3 == When(mild, ConsultAudiologist) + s4 by { SelectStep(3, ConsultAudiologist, avg, risks, h); }
    assert s2 == When(mild, FollowUpTest) + s3 by { SelectStep(2, FollowUpTest, avg, risks, h); }
    assert s1 == When(high, HearingAidEvaluation) + s2 by { SelectStep(1, HearingAidEvaluation, avg, risks, h); }
    assert s0 == When(high, ConsultSpecialist) + s1 by { SelectStep(0, ConsultSpecialist, avg, risks, h); }
    if high {
      assert s0 == [ConsultSpecialist, HearingAidEvaluation] + s4;
    } else if mild {
      assert s0 == [FollowUpTest, ConsultAudiologist] + s4;
    }
  }

  /** A referral pair, when given, opens the list. */
  lemma BandAdviceFirst(avg: real, risks: seq<Risk>, h: PatientHistory)
    ensures avg >= 40.0 ==> GetRecommendations(avg, risks, h)[..2] == [ConsultSpecialist, HearingAidEvaluation]
    ensures 25.0 <= avg < 40.0 ==> GetRecommendations(avg, risks, h)[..2] == [FollowUpTest, ConsultAudiologist]
  {
  }

  /** The closing pair, when given, ends the list. */
  lemma KeepUpAdviceLast(avg: real, risks: seq<Risk>, h: PatientHistory)
    ensures var recs := GetRecommendations(avg, risks, h);
      avg < 25.0 && !HasHighRisk(risks) ==>
        |recs| >= 2 && recs[|recs| - 2..] == [ContinueProtecting, RetestEveryFewYears]
  {
  }

  /** With the risks of the same history: the "continue protecting / test
      every 3-5 years" pair appears exactly when the average is normal and
      there is no noise risk, current ototoxic medication or sudden loss. */
  lemma KeepUpWithoutHighRisk(avg: real, h: PatientHistory)
    ensures ContinueProtecting in GetRecommendations(avg, GetRiskFactors(h), h) <==>
      avg < 25.0 && !(NoiseRisk(h) || h.ototoxicMedications.current || h.earHistory.suddenHearingLoss)
  {
    HighRiskSources(h);
  }

  /** The referral advice agrees with the status bands: the specialist pair
      appears exactly for moderate and significant loss, the follow-up pair
      exactly for mild loss. */
  lemma AdviceMatchesStatus(avg: real, risks: seq<Risk>, h: PatientHistory)
    ensures ConsultSpecialist in GetRecommendations(avg, risks, h) <==> GetHearingStatus(avg).Rank() >= 2
    ensures FollowUpTest in GetRecommendations(avg, risks, h) <==> GetHearingStatus(avg) == MildLoss
  {
  }

  /** Noise at work or in leisure prompts hearing protection; military
      exposure raises the noise risk but does not prompt protection. */
  lemma MilitaryNoiseAsymmetry(h: PatientHistory, avg: real)
    requires h.noiseExposure.military && !h.noiseExposure.occupational && !h.noiseExposure.recreational
    ensures NoiseInduced in GetRiskFactors(h)
    ensures HearingProtection !in GetRecommendations(avg, GetRiskFactors(h), h)
  {
    assert Applies(NoiseInduced, h);
  }

  // ----- the results screen -------------------------------------------------------

  /** What the results screen shows. */
  datatype Report = Report(average: real, status: HearingStatus, risks: seq<Risk>, recommendations: seq<Recommendation>)

  datatype DisplayError = DataNotFound

  /** The results screen: an error when the history or the audiogram is
      missing, otherwise the average, its band, the risks and the
      recommendations computed from them. */
  method DisplayResults(history: Option<PatientHistory>, results: Option<AudiogramMap>)
    returns (r: Result<Report, DisplayError>)
    ensures r.Failure? <==> history.None? || results.None?
    ensures r.Success? ==>
      && r.value.average == AverageThreshold(results.value)
      && r.value.status == GetHearingStatus(r.value.average)
      && (forall k :: k in r.value.risks <==> Applies(k, history.value))
      && InCheckOrder(r.value.risks)
      && r.value.recommendations == GetRecommendations(r.value.average, r.value.risks, history.value)
  {
    if history.None? || results.None? {
      return Failure(DataNotFound);
    }
    var avg := CalculateAverageThreshold(results.value);
    var risks := GetRiskFactors(history.value);
    r := Success(Report(avg, GetHearingStatus(avg), risks, GetRecommendations(avg, risks, history.value)));
  }
}

=== FILE: session.dfy ===
/** How the screens hand data to each other: the calibration publishes its
    map by reference, the test consumes it, and the results screen reads the
    audiogram the test publishes. */
module Session {
  import opened Wrappers
  import opened Audiogram
  import Calibration
  import Audiometry
  import Results
  import AudioWaves

  /** With nothing calibrated the test skips every frequency: it completes
      without presenting a tone or consuming a response, records -1 for each
      frequency of the loop and keeps the other entries. */
  lemma {:induction false} NothingCalibratedSkipsAll(freqs: seq<int>, results: AudiogramMap, events: seq<Audiometry.Response>)
    ensures var run := Audiometry.RunFrom(freqs, map[], results, events);
      && run.Completed?
      && run.tones == []
      && run.used == 0
      && (forall f :: f in run.results <==> f in results || f in freqs)
      && (forall f :: f in freqs ==> run.results[f] == NoResponse)
      && (forall f :: f in results && f !in freqs ==> run.results[f] == results[f])
    decreases |freqs|
  {
    if freqs != [] {
      NothingCalibratedSkipsAll(freqs[1..], results[freqs[0] := NoResponse], events);
      assert forall g :: g in freqs <==> g == freqs[0] || g in freqs[1..];
    }
  }

  /** At start-up, with the generator in its initial settings, the
      calibration panel has published nothing, even once enabled, so enabling
      the test panel shows the missing-calibration error, whatever the
      response-window flag and the presses. */
  lemma TestBeforeCalibrationRefused(windowOpen: bool, early: Option<Audiometry.Press>, events: seq<Audiometry.Response>)
    ensures var woken := Calibration.Awake(AudioWaves.InitialSettings);
      && Calibration.PublishedCalibration(woken) == None
      && Calibration.PublishedCalibration(Calibration.OnEnable(woken)) == None
      && Audiometry.OnEnable(Calibration.PublishedCalibration(woken), windowOpen, early, events) == Failure(Audiometry.CalibrationNotFound)
  {
  }

  /** The published map is shared by reference. Running calibration to the
      end, enabling the calibration panel again and then starting the test:
      the test finds the published map emptied, presents no tone, records -1
      everywhere, and the results screen reports an average of 0, the normal
      band, whatever the window flag a previous pass left. The screens never
      take this path: the test panel opens only from
      the end of calibration (Assets/Scripts/HearingTestManager.cs:143,
      Assets/Scripts/UI.cs:55-63), which refills the map first. The lemma
      shows what the sharing would do to any other route into the test. */
  lemma RecalibrationThenTest(c: Calibration.Calibration, actions: seq<Calibration.Action>, windowOpen: bool,
                              events: seq<Audiometry.Response>)
    requires Calibration.Presses(actions) == |TestOrder|
    ensures Calibration.Run(Calibration.OnEnable(c), actions).Success?
    ensures var reenabled := Calibration.OnEnable(Calibration.Run(Calibration.OnEnable(c), actions).value);
      var test := Audiometry.OnEnable(Calibration.PublishedCalibration(reenabled), windowOpen, None, events);
      && test.Success?
      && test.value.Completed?
      && test.value.tones == []
      && (forall f :: f in test.value.results <==> f in TestOrder)
      && (forall f :: f in TestOrder ==> test.value.results[f] == NoResponse)
      && Results.GetHearingStatus(Results.AverageThreshold(test.value.results)) == Results.Normal
  {
    Calibration.RecalibrationEmptiesPublished(c, actions);
    var reenabled := Calibration.OnEnable(Calibration.Run(Calibration.OnEnable(c), actions).value);
    assert Audiometry.OnEnable(Calibration.PublishedCalibration(reenabled), windowOpen, None, events)
      == Success(Audiometry.RunTest(map[], events));
    NothingCalibratedSkipsAll(TestOrder, map[], events);
    var run := Audiometry.RunTest(map[], events);
    assert forall f :: f in run.results ==> run.results[f] == NoResponse;
    Results.AllNoResponseAveragesZero(run.results);
  }
}

=== FILE: static_data.dfy ===
/** Application-wide data and helpers (Assets/Scripts/StaticDataAndHelpers.cs):
    the age-group mapping, the literal hearing-norm tables, and `Init`.

    The static fields of the original become one immutable record `AppData`;
    a null reference is `None`. The calibration field is modelled in the
    Calibration module, where it is published by reference. */
module StaticData {
  import opened Wrappers
  import opened PatientData
  import opened Audiogram

  /** Norm table: frequency (Hz) to (age group to threshold in dB HL). */
  type NormTable = map<int, map<int, int>>

  /** The inner keys of both norm tables, in increasing order. */
  const AgeGroups: seq<int> := [20, 30, 40, 50, 60, 70]

  /** The age group of an age. The first test alone checks `age > 0`, so ages
      up to 0 fall through to the `age < 40` branch and map to 30. The final
      `int.MinValue` branch of the original is kept and never taken. */
  function GetAgeGroupFromAge(age: int): (g: int)
    ensures g in AgeGroups
    ensures age <= 0 ==> g == 30
    ensures 1 <= age <= 30 ==> g == 20
    ensures 31 <= age <= 69 ==> g == age / 10 * 10
    ensures age >= 70 ==> g == 70
  {
    if age > 0 && age <= 30 then 20
    else if age < 40 then 30
    else if age < 50 then 40
    else if age < 60 then 50
    else if age < 70 then 60
    else if age >= 70 then 70
    else -2147483648
  }

  /** For positive ages the group never decreases as the age grows. */
  lemma AgeGroupMonotone(a: int, b: int)
    requires 1 <= a <= b
    ensures GetAgeGroupFromAge(a) <= GetAgeGroupFromAge(b)
  {
  }

  /** Without the positivity restriction the mapping is not monotone: age 0
      lands in a higher group than age 1. */
  lemma AgeGroupNotMonotoneAtZero()
    ensures GetAgeGroupFromAge(0) == 30 && GetAgeGroupFromAge(1) == 20
  {
  }

  const MaleNorms: NormTable := map[
    250  := map[20 := 5,  30 := 5,  40 := 6,  50 := 8,  60 := 12, 70 := 18],
    500  := map[20 := 5,  30 := 5,  40 := 7,  50 := 9,  60 := 14, 70 := 20],
    1000 := map[20 := 5,  30 := 6,  40 := 8,  50 := 12, 60 := 18, 70 := 25],
    2000 := map[20 := 6,  30 := 8,  40 := 12, 50 := 20, 60 := 30, 70 := 40],
    4000 := map[20 := 8,  30 := 12, 40 := 20, 50 := 35, 60 := 50, 70 := 65],
    8000 := map[20 := 10, 30 := 16, 40 := 25, 50 := 45, 60 := 65, 70 := 75]
  ]

  const FemaleNorms: NormTable := map[
    250  := map[20 := 5,  30 := 5,  40 := 6,  50 := 8,  60 := 13, 70 := 19],
    500  := map[20 := 5,  30 := 5,  40 := 7,  50 := 9,  60 := 15, 70 := 22],
    1000 := map[20 := 5,  30 := 6,  40 := 8,  50 := 10, 60 := 17, 70 := 25],
    2000 := map[20 := 5,  30 := 7,  40 := 10, 50 := 14, 60 := 22, 70 := 32],
    4000 := map[20 := 6,  30 := 10, 40 := 15, 50 := 25, 60 := 40, 70 := 55],
    8000 := map[20 := 8,  30 := 14, 40 := 20, 50 := 38, 60 := 55, 70 := 70]
  ]

  /** A table row has exactly the age groups as keys and its values never
      decrease from one age group to the next. */
  predicate RowWellFormed(row: map<int, int>) {
    && row.Keys == {20, 30, 40, 50, 60, 70}
    && row[20] <= row[30] <= row[40] <= row[50] <= row[60] <= row[70]
  }

  /** A table covers exactly the chart frequencies and every row is well formed. */
  predicate TableWellFormed(t: NormTable) {
    && t.Keys == {250, 500, 1000, 2000, 4000, 8000}
    && forall f :: f in t ==> RowWellFormed(t[f])
  }

  lemma MaleNormsWellFormed()
    ensures TableWellFormed(MaleNorms)
  {
    SixRows(MaleNorms, MaleNorms[250], MaleNorms[500], MaleNorms[1000],
            MaleNorms[2000], MaleNorms[4000], MaleNorms[8000]);
  }

  lemma FemaleNormsWellFormed()
    ensures TableWellFormed(FemaleNorms)
  {
    SixRows(FemaleNorms, FemaleNorms[250], FemaleNorms[500], FemaleNorms[1000],
            FemaleNorms[2000], FemaleNorms[4000], FemaleNorms[8000]);
  }

  /** A table with one well-formed row per chart frequency is well formed. */
  lemma SixRows(t: NormTable, r250: map<int, int>, r500: map<int, int>, r1000: map<int, int>,
                r2000: map<int, int>, r4000: map<int, int>, r8000: map<int, int>)
    requires t == map[250 := r250, 500 := r500, 1000 := r1000, 2000 := r2000, 4000 := r4000, 8000 := r8000]
    requires RowWellFormed(r250) && RowWellFormed(r500) && RowWellFormed(r1000)
    requires RowWellFormed(r2000) && RowWellFormed(r4000) && RowWellFormed(r8000)
    ensures TableWellFormed(t)
  {
  }

  /** Every frequency of a well-formed table is a chart frequency, and every
      age group the mapping produces is a key of each of its rows. */
  lemma AgeGroupIsTableKey(t: NormTable, f: int, age: int)
    requires TableWellFormed(t)
    requires f in t
    ensures f in ChartOrder
    ensures GetAgeGroupFromAge(age) in t[f]
  {
    assert RowWellFormed(t[f]);
  }

  /** Within a well-formed row the norm never decreases with age group. */
  lemma {:induction false} RowMonotone(row: map<int, int>, i: nat, j: nat)
    requires RowWellFormed(row)
    requires i <= j < |AgeGroups|
    ensures AgeGroups[i] in row && AgeGroups[j] in row
    ensures row[AgeGroups[i]] <= row[AgeGroups[j]]
    decreases j - i
  {
    if i < j {
      RowMonotone(row, i + 1, j);
    }
  }

  /** The norm for a given frequency never decreases as a positive age grows. */
  lemma NormMonotoneInAge(t: NormTable, f: int, a: int, b: int)
    requires TableWellFormed(t)
    requires f in t
    requires 1 <= a <= b
    ensures GetAgeGroupFromAge(a) in t[f] && GetAgeGroupFromAge(b) in t[f]
    ensures t[f][GetAgeGroupFromAge(a)] <= t[f][GetAgeGroupFromAge(b)]
  {
    assert RowWellFormed(t[f]);
  }

  /** The static state of the application. */
  datatype AppData = AppData(
    patientHistory: Option<PatientHistory>,
    audiogramResults: Option<AudiogramMap>,
    averageHearingDataMales: Option<NormTable>,
    averageHearingDataFemales: Option<NormTable>)

  /** Before anything runs every static reference is null. */
  const Unset: AppData := AppData(None, None, None, None)

  /** `Init` always installs a fresh history and an empty audiogram; it builds
      the norm tables only when neither table exists yet, and otherwise
      leaves both as they were. */
  function Init(d: AppData): (r: AppData)
    ensures r.patientHistory == Some(DefaultHistory)
    ensures r.audiogramResults == Some(map[])
    ensures d.averageHearingDataMales == None && d.averageHearingDataFemales == None ==>
      r.averageHearingDataMales == Some(MaleNorms) && r.averageHearingDataFemales == Some(FemaleNorms)
    ensures d.averageHearingDataMales != None || d.averageHearingDataFemales != None ==>
      r.averageHearingDataMales == d.averageHearingDataMales
      && r.averageHearingDataFemales == d.averageHearingDataFemales
  {
    var reset := d.(patientHistory := Some(DefaultHistory), audiogramResults := Some(map[]));
    if d.averageHearingDataMales != None || d.averageHearingDataFemales != None then reset
    else reset.(averageHearingDataMales := Some(MaleNorms), averageHearingDataFemales := Some(FemaleNorms))
  }

  /** Running `Init` a second time discards the history and results again but
      leaves the tables exactly as the first run built them. */
  lemma InitIdempotent(d: AppData)
    ensures Init(Init(d)) == Init(d)
  {
  }

  /** From the unset state, `Init` yields the literal tables. */
  lemma InitFromUnset()
    ensures Init(Unset) == AppData(Some(DefaultHistory), Some(map[]), Some(MaleNorms), Some(FemaleNorms))
  {
  }
}

=== FILE: wrappers.dfy ===
/** Failure-compatible wrappers used for the error paths of the model:
    a missing reference or dictionary entry (Option) and an operation that
    would throw in the original program (Result). */
module Wrappers {

  datatype Option<+T> = None | Some(value: T)

  datatype Result<+R, +E> = Success(value: R) | Failure(error: E)
}
